=== FILE: README.md ===
# Hack assembler: a verified functional model

This project models the `assembler` package of a two-pass assembler for the
Hack machine language (chapters 4 and 6 of Nisan and Schocken, *The Elements
of Computing Systems*), and proves properties of the model in Dafny.

- **Line classifier** (`parseLine`). A line is split into words. A blank
  line or one whose first word starts with `//` gives no command. Otherwise
  the first word gives an A command (`@symbol`), a label (`(symbol)`) or a
  compute command `dest=comp;jump`. The only thing allowed after the command
  is a comment.
- **Encoder** (`processCommand` and the three mnemonic tables). A label
  gives the empty word. A compute command gives `111` followed by its comp,
  dest and jump bits. An A command gives `0` followed by `%015b` of a
  decimal literal, of a known symbol's address, or of a freshly allocated
  variable address.
- **Two-pass driver** (`Assemble`, `initSymbolTable`). Pass 1 binds every
  label to the number of A and C commands before it. Pass 2 encodes every
  line, skips labels, allocates variables from address 16 on, and stops at
  the first error without producing any output.

Modules, one per file:

| file | module | contents |
|---|---|---|
| errors.dfy | `Errors` | the error kinds, `Option` and `Result` |
| text.dfy | `Text` | splitting a line into words, joining words, `IndexOf` |
| numbers.dfy | `Numbers` | `strconv.Atoi` (sign, digits, 64-bit range) and the `%015b` verb |
| parser.dfy | `Parser` | the `Command` datatype, `ParseLine` and the round trip from command text |
| tables.dfy | `Tables` | the comp, dest and jump tables and their properties |
| translator.dfy | `Translator` | the symbol table (map plus next-free counter) and `ProcessCommand` |
| assembler.dfy | `Assembler` | the initial table, the two passes, `Assemble`, and a declarative description of a whole run |
| findings.dfy | `SharedCounter` | the as-written variant in which the counter lives inside the map (see Findings) |

The key result is `Assembler.AssembleCorrect` together with
`Assembler.AssembleWords`. A successful run outputs exactly the words that
one symbol table determines. That table is pinned down uniquely by
`Assembler.FinalTable`:

- every label maps to the ROM address of its last declaration;
- every other predefined name keeps its address;
- the variables, in order of first use, get 16, 17, and so on.

`Assembler.AssembleOutcome` states when the run fails and which error it
reports.

Line numbers are the 0-based index of the line in the input, as the driver
passes them. Error messages are modelled as error-kind constructors that
carry the line number and, for unknown mnemonics, the offending value.

## Model

| member | source | states |
|---|---|---|
| Parser.ParseLine | assembler/parser.go:35-109 | No command and no error exactly when the line has no words or its first word starts with `//`. A command comes from the first word, and a second word, if any, is a comment. Which error a failing line reports is stated by `Parser.ParseLineFirstWordError` and `Parser.ParseLineTrailing`. |
| Parser.ParseLineFirstWordError | assembler/parser.go:50-100 | A line whose first word is not a comment and does not classify fails with exactly the error the first word gives. |
| Parser.ParseLineTrailingWords | assembler/parser.go:102-104 | Any line whose first word classifies and whose second word is not a comment is the trailing-tokens error for that line, however its words are separated and whatever follows. |
| Parser.ParseLineTrailing | assembler/parser.go:102-104 | The canonical text of a well-formed command, followed by single-spaced words the first of which is not a comment, is the trailing-tokens error for that line. |
| Parser.ParseWord | assembler/parser.go:51-100 | Classifies the first word by its first character. Its contract is carried by `Parser.ParseWordAddress`, `Parser.ParseWordLabel`, `Parser.ParseWordCompute` and `Parser.ParseWordOfText`. |
| Parser.ParseWordCompute | assembler/parser.go:65-100 | A first word starting with neither `@` nor `(` is handled exactly as `ParseCompute` handles it, so the C-command errors reach the line unchanged. |
| Parser.ParseCompute | assembler/parser.go:65-100 | Splits a C command at the first `=` and the first `;`. Its contract is carried by `Parser.ParseComputeErrors`, `Parser.ParseComputeShape` and the three split lemmas below. |
| Parser.ParseLineSecondWordOnly | assembler/parser.go:102-104 | Two lines whose first two words agree parse alike, so words after a `//` second word are never inspected. |
| Parser.ParseWordAddress | assembler/parser.go:51-57 | `@s` gives `ACommand(s)`; `@` alone is the empty-symbol error. |
| Parser.ParseWordLabel | assembler/parser.go:58-64 | `(` + s + any last character gives `LCommand(s)`, so the closing `)` is not checked. `()` is the empty-symbol error, and a lone `(` is the slice-out-of-range error. |
| Parser.ParseComputeErrors | assembler/parser.go:67-100 | Each C-command error holds exactly when its condition does. Could-not-parse: `=` or `;` first or last, or neither present. Jump-before-assign: `;` before `=`. Empty-comp: `=` right before `;`. No other error can occur, so the split succeeds exactly when none of these conditions holds, even if a part contains a further `=` or `;`. |
| Parser.ParseComputeShape | assembler/parser.go:67-97 | A successful split rebuilds the word, and comp is non-empty. Dest is non-empty iff `=` occurs; jump is non-empty iff `;` occurs. The split is at the first `=` and the first `;`. |
| Parser.ParseComputeDestAndJump | assembler/parser.go:74-85 | `d=c;j` with separator-free non-empty parts splits into `(d, c, j)`. |
| Parser.ParseComputeJumpOnly | assembler/parser.go:86-91 | `c;j` splits into `("", c, j)`. |
| Parser.ParseComputeDestOnly | assembler/parser.go:92-97 | `d=c` splits into `(d, c, "")`. |
| Parser.ParseWordOfText | assembler/parser.go:50-101 | Every well-formed command's canonical text classifies back to that command. |
| Parser.ParseLineOfText | assembler/parser.go:35-109 | A well-formed command's text on a line, optionally followed by a comment, parses back to that command. |
| Text.Words | assembler/parser.go:36-37 | Splitting yields only non-empty, separator-free words, and yields none exactly when the line is all separators. |
| Text.WordsOfUnwords | assembler/parser.go:36-37 | Splitting words joined by spaces gives back the same words. |
| Text.WordsSkipSpaces | assembler/parser.go:36-37 | Leading separators, any number of them, do not change the words of a line. |
| Text.WordsAfterWord | assembler/parser.go:36-37 | A word followed by any non-empty run of separators is the first word, and the words of the rest follow it. |
| Text.IndexOf | assembler/parser.go:67 | Gives -1 exactly when the character is absent; otherwise the index of its first occurrence. |
| Numbers.Atoi | assembler/translator.go:31 | A parsed value lies in the 64-bit signed range, and the text contains a digit. Which texts are read, and as what value, is stated by `Numbers.AtoiAccepts` and `Numbers.AtoiOfDigits`. |
| Numbers.AtoiOfDigits | assembler/translator.go:31 | Every optional sign followed by a non-empty run of digits is read, leading zeros included. The value is the digits' value, negated after `-`, when it fits 64 bits; otherwise the text is not a number. |
| Numbers.AtoiLeadingZeros | assembler/translator.go:31 | `007` reads as 7, `-05` as -5 and `-00` as 0, so `@007` is the literal 7 and not a variable. |
| Numbers.AtoiAccepts | assembler/translator.go:31 | A number is read only from text that is an optional sign followed by at least one digit, and its magnitude is the value of those digits. A negative number comes from text starting with `-`. No digits, or any non-digit after the sign, gives no number. |
| Numbers.AtoiOfDecimal | assembler/translator.go:31 | Decimal text, optionally signed, reads back as its value. Beyond the 64-bit range it is not a number, with or without a sign, on both the positive and the negative side. |
| Numbers.Format015b | assembler/translator.go:36 | The `%015b` verb. Its contract is carried by the three lemmas below. |
| Numbers.Format015bInRange | assembler/translator.go:36 | Every value in 0..2^15-1 formats as exactly 15 binary digits that read back as the value. |
| Numbers.Format015bNoTruncation | assembler/translator.go:36 | A value of 2^15 or more formats as more than 15 binary digits, still reading back as the value. |
| Numbers.Format015bNegative | assembler/translator.go:36 | A negative value formats with a leading `-`, so it is not binary. |
| Tables.CompTableWidth | assembler/translator.go:51-80 | Every comp code is 7 binary digits. |
| Tables.DestTableWidth | assembler/translator.go:82-91 | Every dest code is 3 binary digits. |
| Tables.JumpTableWidth | assembler/translator.go:93-102 | Every jump code is 3 binary digits. |
| Tables.CompTableInjective | assembler/translator.go:51-80 | Distinct comp mnemonics have distinct codes. |
| Tables.DestTableInjective | assembler/translator.go:82-91 | Distinct dest mnemonics have distinct codes. |
| Tables.JumpTableInjective | assembler/translator.go:93-102 | Distinct jump mnemonics have distinct codes. |
| Tables.DestBitsAreFlags | assembler/translator.go:82-91 | The dest bits are the presence flags of `A`, `D` and `M` in the mnemonic. |
| Tables.CompLeadingBitIsM | assembler/translator.go:51-80 | The leading comp bit is 1 exactly for the mnemonics that mention `M`. |
| Translator.ProcessCommand | assembler/translator.go:11-48 | It fails exactly when `CommandError` names an error, and with that error, whatever the table. On success the table only gains bindings. The word is empty iff the command is a label. Labels and C commands leave the table unchanged. |
| Translator.ComputeCommandResult | assembler/translator.go:16-29 | Unknown fields are reported in the order comp, dest, jump, each with its value. Known fields give a 16-digit binary word and an unchanged table. |
| Translator.ComputeWordLayout | assembler/translator.go:29 | A C word is `111`, then the comp code, the dest code and the jump code, in those positions. |
| Translator.ComputeWordDetermines | assembler/translator.go:16-29 | Equal C words come from equal (dest, comp, jump) triples, so the encoding is invertible. |
| Translator.LiteralResult | assembler/translator.go:31-45 | A decimal literal up to 32767 encodes as `0` plus 15 bits reading back as its value, with the table unchanged. A larger one, up to 2^63-1, is the number-too-big error. Beyond that the text is not a number, so it is looked up as a symbol or allocated as a new variable. |
| Translator.NumberResult | assembler/translator.go:31-37 | Any text `Atoi` accepts, with a value up to 32767, encodes as that value's address word, with the table unchanged. |
| Translator.SignedLiteralResult | assembler/translator.go:31-36 | A signed literal is accepted: `+7` encodes as 7, and `-1` yields the non-binary word `0-00000000000001`. |
| Translator.AddressWordShape | assembler/translator.go:36 | An address word is 16 binary digits reading back as the value in range, longer above 32767, and not binary when negative. |
| Translator.KnownSymbolResult | assembler/translator.go:38-45 | A non-numeric symbol already in the table encodes its stored address, with the table unchanged. |
| Translator.NewVariableResult | assembler/translator.go:38-43 | An unknown non-numeric symbol is bound to the next free address, and the counter moves up by one. No other binding changes. |
| Assembler.InitSymbolTable | assembler/assembler.go:44-72 | The 23 predefined names with their addresses, and the counter at 16. Its contract is carried by the five `Predefined` lemmas below. |
| Assembler.PredefinedOnly | assembler/assembler.go:44-72 | The table holds exactly the 23 predefined names and no other. The counter's name is kept out of the map; see Findings. |
| Assembler.PredefinedRegisters | assembler/assembler.go:44-72 | `R0`..`R15` map to 0..15, and variables start at 16. |
| Assembler.PredefinedBases | assembler/assembler.go:44-72 | SP, LCL, ARG, THIS and THAT map to 0..4; SCREEN maps to 16384 and KBD to 24576. |
| Assembler.PredefinedNotNumbers | assembler/assembler.go:44-72 | No predefined name reads as a number, so an A command naming one looks it up. |
| Assembler.PredefinedInRange | assembler/assembler.go:44-72 | Every predefined address fits an A command. |
| Assembler.ParsedAt | assembler/assembler.go:7-8 | Line `j` is parsed with line number `j`. |
| Assembler.LastLabel | assembler/assembler.go:18-19 | Finds the last declaration of a label before a given line, or shows there is none. |
| Assembler.Variables | assembler/translator.go:38-43 | Each variable of a run is the symbol of some non-numeric A command. They are distinct and none is a known name; in a whole run the known names are the predefined names and the labels. |
| Assembler.Pass1 | assembler/assembler.go:6-21 | The label pass. Its contract is carried by `Assembler.Pass1Outcome` and `Assembler.Pass1Binds`. |
| Assembler.Pass1Outcome | assembler/assembler.go:7-11 | Pass 1 fails iff some line fails to parse, and then with the first such parse error. |
| Assembler.Pass1Binds | assembler/assembler.go:6-21 | After pass 1, each label maps to the count of A and C commands before its last declaration, overriding a predefined name. Every other name keeps its entry. |
| Assembler.Pass2 | assembler/assembler.go:23-41 | The encoding pass. Its contract is carried by `Assembler.Pass2Outcome` and `Assembler.Pass2Spec`. |
| Assembler.Pass2Outcome | assembler/assembler.go:24-38 | Pass 2 fails iff some line has a parse or translation error, and then with the first one. |
| Assembler.Pass2Spec | assembler/assembler.go:23-41 | A successful pass 2 only extends the table. It allocates the new variables in order from the counter. It outputs one word per A or C command, in source order: the word that command stands for under the final table. |
| Assembler.InstructionWordStable | assembler/translator.go:30-45 | An instruction's word does not change when the table only gains bindings afterwards. |
| Assembler.Assemble | assembler/assembler.go:3-42 | The whole run. Its contract is carried by `Assembler.AssembleOutcome`, `Assembler.AssembleCorrect` and `Assembler.AssembleWords`. |
| Assembler.AssembleOutcome | assembler/assembler.go:3-42 | The run fails iff some line has an error. A parse error anywhere wins, and the first one is reported. With every line parsing, the first translation error is reported. No partial output is ever produced. |
| Assembler.FinalTableUnique | assembler/assembler.go:3-42 | At most one symbol table fits the description: labels at their last ROM address, predefined names kept, variables from 16 in order of first use. |
| Assembler.AssembleCorrect | assembler/assembler.go:3-42 | A successful run outputs exactly the words of its A and C commands, in source order, under the table `FinalTable` describes. |
| Assembler.AssembleWords | assembler/assembler.go:23-41 | The output has one word per A or C command. The command at ROM address `k` is output at position `k`, with forward label references resolved. |
| Assembler.ExpectedWordAt | assembler/assembler.go:39 | The expected output places each instruction's word at its ROM address. |
| SharedCounter.ProcessShared | assembler/translator.go:30-45 | With the counter kept in the map, it fails exactly when `ProcessCommand` does and with the same error, and only A commands touch the map. |
| SharedCounter.Pass2Shared | assembler/assembler.go:23-41 | Pass 2 as written, over a map that holds the counter. Its behaviour on the two example programs is stated by `SharedCounter.CounterLabelCollision` and `SharedCounter.CounterSymbolUse`. |
| SharedCounter.AssembleShared | assembler/assembler.go:3-42 | The whole run as written. Its behaviour on the two example programs is stated by the same two lemmas. |
| SharedCounter.SharedPass2 | assembler/translator.go:40-43 | With the counter entry reset to 0 by a label, a fresh variable is bound to address 0. |
| SharedCounter.SeparatePass2 | assembler/translator.go:38-43 | With a separate counter, a fresh variable after a label gets the counter's address. |
| SharedCounter.CounterLabelCollision | assembler/assembler.go:46 | For `(NEXT_AVAILABLE_ADDRESS)` then `@x`, the as-written run outputs address 0, the address of R0, while the corrected run outputs address 16. |
| SharedCounter.CounterSymbolUse | assembler/translator.go:38-43 | For `@NEXT_AVAILABLE_ADDRESS` then `@x`, the as-written run outputs address 16 twice, so two names share one variable. The corrected run outputs 16 and 17. |

## Left out

- The command-line driver (main.go): argument checks, file reading and writing, and output paths. It is I/O only.
- Word splitting treats only the six ASCII white-space characters as separators. The Unicode spaces that Go's word scanner also recognizes are not modelled.
- Parser.ParseLine: the scanner's token-size limit is not modelled. Go's `bufio.Scanner` stops with a too-long-token error on a word of 64 KiB or longer (`bufio.MaxScanTokenSize`), which the read-error branches at assembler/parser.go:39-41 and 105-107 report. The model splits lines of any length.
- Error messages are error-kind constructors, not formatted text.
- Strings are sequences of characters, not UTF-8 bytes. Go's byte slicing of `firstWord` agrees with this only for ASCII input.
- Parser.ParseWordLabel: a lone `(` makes Go's `firstWord[1:0]` panic. The model returns the error `LabelSliceOutOfRange` instead.
- `strconv.Atoi` is modelled for a 64-bit `int`. On a 32-bit platform the range would be narrower.
- The two program tests in assembler/assembler_test.go call an `Assemble` that takes a reader, which does not match the code. Their whole-program outputs are not restated as concrete lemmas. The general results `Assembler.AssembleCorrect` and `Assembler.AssembleWords` cover forward references and variable order instead.

## Findings

| source | as written | input that shows it | evidently intended | confidence | as-written member | corrected member |
|---|---|---|---|---|---|---|
| assembler/assembler.go:46 | The next-free variable address is stored in the symbol table itself, under the key `NEXT_AVAILABLE_ADDRESS`, and read back at assembler/translator.go:40-42. Pass 1 binds labels in the same map, so a label with that name overwrites the counter with its ROM address. | `(NEXT_AVAILABLE_ADDRESS)` then `@x`: the counter becomes 0, and `x` is allocated address 0, which is `R0`/`SP`. | Variables start at 16 and never alias predefined registers, whatever the user names a label. | not executed | SharedCounter.CounterLabelCollision | Assembler.AssembleCorrect |
| assembler/translator.go:38-43 | An A command naming `NEXT_AVAILABLE_ADDRESS` finds the counter's own entry in the table. It encodes the counter's value and allocates nothing. | `@NEXT_AVAILABLE_ADDRESS` then `@x`: both are encoded as address 16, so two different names share one word of RAM. | The counter's name is an ordinary variable: the two get 16 and 17. | not executed | SharedCounter.CounterSymbolUse | Assembler.AssembleCorrect |

=== FILE: assembler.dfy ===
/** The two-pass driver: pass 1 binds labels to ROM addresses, pass 2
    translates every instruction, and the first error ends the run with
    no output. */
module Assembler {
  import opened Errors
  import opened Numbers
  import opened Tables
  import opened Parser
  import opened Translator

  /** The first address handed to a variable. */
  const VariableBase: int := 16

  /** The predefined symbols and the first free variable address. */
  function InitSymbolTable(): SymbolTable {
    SymbolTable(
      map[
        "SP" := 0, "LCL" := 1, "ARG" := 2, "THIS" := 3, "THAT" := 4,
        "R0" := 0, "R1" := 1, "R2" := 2, "R3" := 3, "R4" := 4, "R5" := 5,
        "R6" := 6, "R7" := 7, "R8" := 8, "R9" := 9, "R10" := 10, "R11" := 11,
        "R12" := 12, "R13" := 13, "R14" := 14, "R15" := 15,
        "SCREEN" := 16384, "KBD" := 24576
      ],
      VariableBase)
  }

  /** R0 to R15 name RAM words 0 to 15, and variables start right after
      them. */
  lemma PredefinedRegisters(r: nat)
    requires r < 16
    ensures "R" + Decimal(r) in InitSymbolTable().symbols
    ensures InitSymbolTable().symbols["R" + Decimal(r)] == r
    ensures InitSymbolTable().next == VariableBase == 16
  {
    if r < 4 {
      Registers0To3(r);
    } else if r < 8 {
      Registers4To7(r);
    } else if r < 12 {
      Registers8To11(r);
    } else {
      Registers12To15(r);
    }
  }

  // The sixteen registers are split four to a lemma only to keep each
  // proof small: `"R" + Decimal(r)` has to be evaluated case by case.

  lemma Registers0To3(r: nat)
    requires 0 <= r < 4
    ensures "R" + Decimal(r) in InitSymbolTable().symbols
    ensures InitSymbolTable().symbols["R" + Decimal(r)] == r
  {
    if r == 0 {
      assert "R" + Decimal(0) == "R0";
    } else if r == 1 {
      assert "R" + Decimal(1) == "R1";
    } else if r == 2 {
      assert "R" + Decimal(2) == "R2";
    } else {
      assert "R" + Decimal(3) == "R3";
    }
  }

  lemma Registers4To7(r: nat)
    requires 4 <= r < 8
    ensures "R" + Decimal(r) in InitSymbolTable().symbols
    ensures InitSymbolTable().symbols["R" + Decimal(r)] == r
  {
    if r == 4 {
      assert "R" + Decimal(4) == "R4";
    } else if r == 5 {
      assert "R" + Decimal(5) == "R5";
    } else if r == 6 {
      assert "R" + Decimal(6) == "R6";
    } else {
      assert "R" + Decimal(7) == "R7";
    }
  }

  lemma Registers8To11(r: nat)
    requires 8 <= r < 12
    ensures "R" + Decimal(r) in InitSymbolTable().symbols
    ensures InitSymbolTable().symbols["R" + Decimal(r)] == r
  {
    if r == 8 {
      assert "R" + Decimal(8) == "R8";
    } else if r == 9 {
      assert "R" + Decimal(9) == "R9";
    } else if r == 10 {
      assert "R" + Decimal(10) == "R10";
    } else {
      assert "R" + Decimal(11) == "R11";
    }
  }

  lemma Registers12To15(r: nat)
    requires 12 <= r < 16
    ensures "R" + Decimal(r) in InitSymbolTable().symbols
    ensures InitSymbolTable().symbols["R" + Decimal(r)] == r
  {
    if r == 12 {
      assert "R" + Decimal(12) == "R12";
    } else if r == 13 {
      assert "R" + Decimal(13) == "R13";
    } else if r == 14 {
      assert "R" + Decimal(14) == "R14";
    } else {
      assert "R" + Decimal(15) == "R15";
    }
  }

  /** The table holds the predefined names and nothing else, so any other
      symbol is a label or a variable. */
  lemma PredefinedOnly()
    ensures InitSymbolTable().symbols.Keys ==
      {"SP", "LCL", "ARG", "THIS", "THAT",
       "R0", "R1", "R2", "R3", "R4", "R5", "R6", "R7",
       "R8", "R9", "R10", "R11", "R12", "R13", "R14", "R15",
       "SCREEN", "KBD"}
  {
  }

  /** The stack and segment base registers and the memory-mapped devices. */
  lemma PredefinedBases()
    ensures var t := InitSymbolTable().symbols;
      && t["SP"] == 0 && t["LCL"] == 1 && t["ARG"] == 2 && t["THIS"] == 3 && t["THAT"] == 4
      && t["SCREEN"] == 16384 && t["KBD"] == 24576
  {
  }

  /** No predefined name reads as a number, so an A command naming one
      always looks it up. */
  lemma PredefinedNotNumbers()
    ensures forall k :: k in InitSymbolTable().symbols ==> Atoi(k).None?
  {
  }

  /** Every predefined address fits an A command. */
  lemma PredefinedInRange()
    ensures forall k :: k in InitSymbolTable().symbols ==> 0 <= InitSymbolTable().symbols[k] <= MaxLiteral
  {
  }

  /** Pass 1 from line `i` on: `rom` counts the A and C commands met so far,
      and each label is bound to the current count. Labels, blanks and
      comments do not move the count; a repeated label overwrites. */
  function Pass1(lines: seq<string>, i: nat, rom: int, symbols: map<string, int>): Result<map<string, int>>
    requires i <= |lines|
    decreases |lines| - i
  {
    if i == |lines| then Success(symbols)
    else
      match ParseLine(lines[i], i)
      case Failure(e) => Failure(e)
      case Success(None) => Pass1(lines, i + 1, rom, symbols)
      case Success(Some(c)) =>
        if c.LCommand? then Pass1(lines, i + 1, rom, symbols[c.symbol := rom])
        else Pass1(lines, i + 1, rom + 1, symbols)
  }

  /** Pass 2 from line `i` on: each line is parsed again and translated;
      an empty word (a label) is skipped. Returns the words and the final
      symbol table. */
  function Pass2(lines: seq<string>, i: nat, st: SymbolTable): Result<(seq<string>, SymbolTable)>
    requires i <= |lines|
    decreases |lines| - i
  {
    if i == |lines| then Success(([], st))
    else
      match ParseLine(lines[i], i)
      case Failure(e) => Failure(e)
      case Success(None) => Pass2(lines, i + 1, st)
      case Success(Some(c)) =>
        match ProcessCommand(c, i, st)
        case Failure(e) => Failure(e)
        case Success((word, st')) =>
          if word == [] then Pass2(lines, i + 1, st')
          else
            match Pass2(lines, i + 1, st')
            case Failure(e) => Failure(e)
            case Success((words, fin)) => Success(([word] + words, fin))
  }

  /** The whole run: both passes over the same lines, failing with the
      first error met and no partial output. */
  function Assemble(lines: seq<string>): Result<seq<string>> {
    var init := InitSymbolTable();
    match Pass1(lines, 0, 0, init.symbols)
    case Failure(e) => Failure(e)
    case Success(labels) =>
      match Pass2(lines, 0, SymbolTable(labels, init.next))
      case Failure(e) => Failure(e)
      case Success((words, _)) => Success(words)
  }

  // ---------------------------------------------------------------------
  // Declarative description of a run over the parsed lines, independent
  // of the two passes.
  // ---------------------------------------------------------------------

  /** What parsing one line gives: an error, nothing, or a command. */
  type Parse = Result<Option<Command>>

  /** Every line from `i` on parsed with its 0-based line number. */
  function ParsedFrom(lines: seq<string>, i: nat): (ps: seq<Parse>)
    requires i <= |lines|
    ensures |ps| == |lines| - i
    decreases |lines| - i
  {
    if i == |lines| then [] else [ParseLine(lines[i], i)] + ParsedFrom(lines, i + 1)
  }

  /** Every line parsed with its 0-based line number. */
  function Parsed(lines: seq<string>): (ps: seq<Parse>)
    ensures |ps| == |lines|
  {
    ParsedFrom(lines, 0)
  }

  /** Entry `j` of the parsed lines is line `j` parsed. */
  lemma {:induction false} ParsedFromAt(lines: seq<string>, i: nat, j: int)
    requires i <= j < |lines|
    ensures ParsedFrom(lines, i)[j - i] == ParseLine(lines[j], j)
    decreases j - i
  {
    if i < j {
      ParsedFromAt(lines, i + 1, j);
    }
  }

  lemma ParsedAt(lines: seq<string>, j: int)
    requires 0 <= j < |lines|
    ensures Parsed(lines)[j] == ParseLine(lines[j], j)
  {
    ParsedFromAt(lines, 0, j);
  }

  /** The line holds an A or a C command. */
  predicate IsInstruction(p: Parse) {
    p.Success? && p.value.Some? && !p.value.value.LCommand?
  }

  /** The label the line declares, if it declares one. */
  function LabelOf(p: Parse): Option<string> {
    if p.Success? && p.value.Some? && p.value.value.LCommand? then Some(p.value.value.symbol) else None
  }

  /** The line declares label `name`. */
  predicate IsLabel(p: Parse, name: string) {
    LabelOf(p) == Some(name)
  }

  /** Which lines hold an A or a C command. */
  function Flags(ps: seq<Parse>): (fs: seq<bool>)
    ensures |fs| == |ps|
  {
    seq(|ps|, j requires 0 <= j < |ps| => IsInstruction(ps[j]))
  }

  /** The ROM address of line `j`: how many A and C commands come before it. */
  function RomAt(ps: seq<Parse>, j: int): nat
    requires 0 <= j <= |ps|
  {
    Count(Flags(ps), j)
  }

  /** The last line before `m` that declares label `name`. */
  function LastLabel(ps: seq<Parse>, name: string, m: int): (r: Option<nat>)
    requires 0 <= m <= |ps|
    ensures r.Some? ==> r.value < m && IsLabel(ps[r.value], name)
    ensures r.Some? ==> forall k :: r.value < k < m ==> !IsLabel(ps[k], name)
    ensures r.None? ==> forall k :: 0 <= k < m ==> !IsLabel(ps[k], name)
  {
    if m == 0 then None
    else if IsLabel(ps[m - 1], name) then Some(m - 1)
    else LastLabel(ps, name, m - 1)
  }

  /** Every name some line declares as a label. */
  function LabelNames(ps: seq<Parse>): set<string> {
    set j | 0 <= j < |ps| && LabelOf(ps[j]).Some? :: LabelOf(ps[j]).value
  }

  /** `t` is what binding the labels of the first `m` lines over `init` gives:
      a name declared as a label maps to the ROM address of its last
      declaration, any other name keeps its entry in `init`. */
  ghost predicate LabelsBound(ps: seq<Parse>, m: int, init: map<string, int>, t: map<string, int>)
    requires 0 <= m <= |ps|
  {
    forall k ::
      && (k in t <==> k in init || LastLabel(ps, k, m).Some?)
      && (k in t ==>
            t[k] == match LastLabel(ps, k, m)
                    case Some(j) => RomAt(ps, j)
                    case None => init[k])
  }

  /** The non-literal A-command symbols of lines `i` onwards that are not in
      `known`, each once, in order of first use. */
  function Variables(ps: seq<Parse>, i: int, known: set<string>): (vs: seq<string>)
    requires 0 <= i <= |ps|
    ensures forall a, b :: 0 <= a < b < |vs| ==> vs[a] != vs[b]
    ensures forall a :: 0 <= a < |vs| ==> vs[a] !in known
    ensures forall a :: 0 <= a < |vs| ==>
              Atoi(vs[a]).None? && exists j :: i <= j < |ps| && ps[j] == Success(Some(ACommand(vs[a])))
    decreases |ps| - i
  {
    if i == |ps| then []
    else
      match ps[i]
      case Success(Some(ACommand(s))) =>
        if Atoi(s).None? && s !in known then [s] + Variables(ps, i + 1, known + {s})
        else Variables(ps, i + 1, known)
      case _ => Variables(ps, i + 1, known)
  }

  /** The error line `j` stops a run with, if any. */
  function LineError(ps: seq<Parse>, j: int): Option<Error>
    requires 0 <= j < |ps|
  {
    match ps[j]
    case Failure(e) => Some(e)
    case Success(None) => None
    case Success(Some(c)) => CommandError(c, j)
  }

  ghost predicate FirstParseFailure(ps: seq<Parse>, i: int, j: int) {
    && 0 <= i <= j < |ps|
    && ps[j].Failure?
    && forall k :: i <= k < j ==> ps[k].Success?
  }

  ghost predicate FirstLineError(ps: seq<Parse>, i: int, j: int) {
    && 0 <= i <= j < |ps|
    && LineError(ps, j).Some?
    && forall k :: i <= k < j ==> LineError(ps, k).None?
  }

  /** The word an instruction stands for once every symbol has its final
      address in `symbols`. */
  function InstructionWord(c: Command, symbols: map<string, int>): string {
    match c
    case CCommand(d, cp, j) =>
      if cp in CompTable && d in DestTable && j in JumpTable then ComputeWord(d, cp, j) else []
    case ACommand(s) =>
      (match Atoi(s)
       case Some(v) => AddressWord(v)
       case None => if s in symbols then AddressWord(symbols[s]) else [])
    case LCommand(_) => []
  }

  /** The word line `p` stands for under `symbols`: empty unless it holds
      an instruction. */
  function LineWord(p: Parse, symbols: map<string, int>): string {
    if IsInstruction(p) then InstructionWord(p.value.value, symbols) else []
  }

  /** `f` applied to each element of `xs` from `i` on. */
  function MapFrom<A, B>(xs: seq<A>, i: int, f: A -> B): (ys: seq<B>)
    requires 0 <= i <= |xs|
    ensures |ys| == |xs| - i
    decreases |xs| - i
  {
    if i == |xs| then [] else [f(xs[i])] + MapFrom(xs, i + 1, f)
  }

  /** The word each line stands for under `symbols`. */
  function LineWords(ps: seq<Parse>, symbols: map<string, int>): (ws: seq<string>)
    ensures |ws| == |ps|
  {
    MapFrom(ps, 0, p => LineWord(p, symbols))
  }

  /** The words a run should emit for lines `i` onwards: the word of each
      instruction under `symbols`, in line order. */
  function ExpectedWords(ps: seq<Parse>, i: int, symbols: map<string, int>): seq<string>
    requires 0 <= i <= |ps|
  {
    Select(Flags(ps), LineWords(ps, symbols), i)
  }

  /** `fin` extends `st` by exactly the variables `vs`, numbered from the
      counter of `st`. */
  ghost predicate VariablesAllocated(vs: seq<string>, st: SymbolTable, fin: SymbolTable) {
    && fin.next == st.next + |vs|
    && (forall k :: k in fin.symbols <==> k in st.symbols || k in vs)
    && (forall a :: 0 <= a < |vs| ==> vs[a] in fin.symbols && fin.symbols[vs[a]] == st.next + a)
  }

  // ---------------------------------------------------------------------
  // ROM addresses and expected words
  // ---------------------------------------------------------------------

  /** How many of the first `j` flags are set. */
  function Count(fs: seq<bool>, j: int): nat
    requires 0 <= j <= |fs|
  {
    if j == 0 then 0 else Count(fs, j - 1) + (if fs[j - 1] then 1 else 0)
  }

  /** The elements of `xs` from `i` on whose flag is set, in order. */
  function Select<T>(fs: seq<bool>, xs: seq<T>, i: int): seq<T>
    requires |xs| == |fs| && 0 <= i <= |fs|
    decreases |fs| - i
  {
    if i == |fs| then []
    else if fs[i] then [xs[i]] + Select(fs, xs, i + 1)
    else Select(fs, xs, i + 1)
  }

  /** Counts grow along the flags, strictly past a set flag. */
  lemma {:induction false} CountMonotone(fs: seq<bool>, a: int, b: int)
    requires 0 <= a <= b <= |fs|
    ensures Count(fs, a) <= Count(fs, b)
    ensures a < b && fs[a] ==> Count(fs, a) < Count(fs, b)
    decreases b - a
  {
    if a < b {
      CountMonotone(fs, a, b - 1);
    }
  }

  /** Selecting from `i` keeps one element per set flag, and the element at
      a set flag `j` lands at the number of set flags between `i` and `j`. */
  lemma {:induction false} SelectAt<T>(fs: seq<bool>, xs: seq<T>, i: int)
    requires |xs| == |fs| && 0 <= i <= |fs|
    ensures Count(fs, i) <= Count(fs, |fs|)
    ensures |Select(fs, xs, i)| == Count(fs, |fs|) - Count(fs, i)
    ensures forall j {:trigger xs[j]} :: i <= j < |fs| && fs[j] ==>
              && Count(fs, i) <= Count(fs, j) < Count(fs, |fs|)
              && Select(fs, xs, i)[Count(fs, j) - Count(fs, i)] == xs[j]
    decreases |fs| - i
  {
    if i < |fs| {
      SelectAt(fs, xs, i + 1);
      CountMonotone(fs, i, |fs|);
      forall j | i <= j < |fs| && fs[j]
        ensures Count(fs, i) <= Count(fs, j) < Count(fs, |fs|)
        ensures Select(fs, xs, i)[Count(fs, j) - Count(fs, i)] == xs[j]
      {
        CountMonotone(fs, i, j);
        CountMonotone(fs, j, |fs|);
      }
    }
  }

  lemma {:induction false} MapFromAt<A, B>(xs: seq<A>, i: int, j: int, f: A -> B)
    requires 0 <= i <= j < |xs|
    ensures MapFrom(xs, i, f)[j - i] == f(xs[j])
    decreases j - i
  {
    if i < j {
      MapFromAt(xs, i + 1, j, f);
    }
  }

  lemma LineWordsAt(ps: seq<Parse>, j: int, symbols: map<string, int>)
    requires 0 <= j < |ps|
    ensures LineWords(ps, symbols)[j] == LineWord(ps[j], symbols)
  {
    MapFromAt(ps, 0, j, p => LineWord(p, symbols));
  }

  /** The expected words hold one word per instruction. */
  lemma ExpectedWordsLength(ps: seq<Parse>, symbols: map<string, int>)
    ensures |ExpectedWords(ps, 0, symbols)| == RomAt(ps, |ps|)
  {
    SelectAt(Flags(ps), LineWords(ps, symbols), 0);
  }

  /** The word of line `j`, an instruction, sits at its ROM address. */
  lemma ExpectedWordAt(ps: seq<Parse>, symbols: map<string, int>, j: int)
    requires 0 <= j < |ps| && IsInstruction(ps[j])
    ensures RomAt(ps, j) < RomAt(ps, |ps|) == |ExpectedWords(ps, 0, symbols)|
    ensures ExpectedWords(ps, 0, symbols)[RomAt(ps, j)] == LineWords(ps, symbols)[j]
  {
    var fs, ws := Flags(ps), LineWords(ps, symbols);
    SelectAt(fs, ws, 0);
    assert fs[j] && ws[j] == LineWords(ps, symbols)[j];
  }

  /** Line `i` moves the ROM address on by one exactly when it holds an
      instruction. */
  lemma RomAtStep(ps: seq<Parse>, i: int)
    requires 0 <= i < |ps|
    ensures RomAt(ps, i + 1) == RomAt(ps, i) + (if IsInstruction(ps[i]) then 1 else 0)
  {
    assert Flags(ps)[i] == IsInstruction(ps[i]);
  }

  /** Line `i` contributes its word to the expected words exactly when it
      holds an instruction. */
  lemma ExpectedWordsStep(ps: seq<Parse>, i: int, symbols: map<string, int>)
    requires 0 <= i < |ps|
    ensures ExpectedWords(ps, i, symbols) ==
              (if IsInstruction(ps[i]) then [InstructionWord(ps[i].value.value, symbols)] else [])
              + ExpectedWords(ps, i + 1, symbols)
  {
    assert Flags(ps)[i] == IsInstruction(ps[i]);
    LineWordsAt(ps, i, symbols);
  }

  // ---------------------------------------------------------------------
  // Pass 1
  // ---------------------------------------------------------------------

  /** Pass 1 fails exactly when some line from `i` on fails to parse, and
      then with the error of the first such line. */
  lemma {:induction false} Pass1Outcome(lines: seq<string>, i: nat, rom: int, symbols: map<string, int>)
    requires i <= |lines|
    ensures Pass1(lines, i, rom, symbols).Failure? <==>
              exists j :: i <= j < |lines| && Parsed(lines)[j].Failure?
    ensures forall j :: FirstParseFailure(Parsed(lines), i, j) ==>
              Pass1(lines, i, rom, symbols) == Failure(Parsed(lines)[j].error)
    decreases |lines| - i
  {
    var ps := Parsed(lines);
    if i < |lines| {
      ParsedAt(lines, i);
      match ParseLine(lines[i], i)
      case Failure(e) =>
      case Success(None) =>
        Pass1Outcome(lines, i + 1, rom, symbols);
        Pass1OutcomeStep(ps, i);
      case Success(Some(c)) =>
        if c.LCommand? {
          Pass1Outcome(lines, i + 1, rom, symbols[c.symbol := rom]);
        } else {
          Pass1Outcome(lines, i + 1, rom + 1, symbols);
        }
        Pass1OutcomeStep(ps, i);
    }
  }

  lemma Pass1OutcomeStep(ps: seq<Parse>, i: nat)
    requires i < |ps| && ps[i].Success?
    ensures (exists j :: i <= j < |ps| && ps[j].Failure?) <==> (exists j :: i + 1 <= j < |ps| && ps[j].Failure?)
    ensures forall j :: FirstParseFailure(ps, i, j) ==> FirstParseFailure(ps, i + 1, j)
  {
  }

  /** Binding the labels of line `i` onwards, starting from the bindings of
      the first `i` lines, gives the bindings of all the lines. */
  lemma {:induction false} Pass1Binds(lines: seq<string>, i: nat, init: map<string, int>,
                                      t: map<string, int>, r: map<string, int>)
    requires i <= |lines|
    requires LabelsBound(Parsed(lines), i, init, t)
    requires Pass1(lines, i, RomAt(Parsed(lines), i), t) == Success(r)
    ensures LabelsBound(Parsed(lines), |lines|, init, r)
    decreases |lines| - i
  {
    var ps := Parsed(lines);
    if i < |lines| {
      ParsedAt(lines, i);
      RomAtStep(ps, i);
      var p := ps[i];
      var declared := if p.Success? && p.value.Some? && p.value.value.LCommand? then Some(p.value.value.symbol) else None;
      LabelsBoundStep(ps, i, init, t, declared);
      var t' := if declared.Some? then t[declared.value := RomAt(ps, i)] else t;
      Pass1Binds(lines, i + 1, init, t', r);
    }
  }

  lemma LabelsBoundStep(ps: seq<Parse>, i: nat, init: map<string, int>, t: map<string, int>,
                        declared: Option<string>)
    requires i < |ps|
    requires LabelsBound(ps, i, init, t)
    requires declared.Some? ==> IsLabel(ps[i], declared.value)
    requires declared.None? ==> forall k :: !IsLabel(ps[i], k)
    ensures declared.Some? ==> LabelsBound(ps, i + 1, init, t[declared.value := RomAt(ps, i)])
    ensures declared.None? ==> LabelsBound(ps, i + 1, init, t)
  {
    if declared.Some? {
      var s := declared.value;
      var t' := t[s := RomAt(ps, i)];
      forall k
        ensures && (k in t' <==> k in init || LastLabel(ps, k, i + 1).Some?)
                && (k in t' ==>
                      t'[k] == match LastLabel(ps, k, i + 1)
                               case Some(j) => RomAt(ps, j)
                               case None => init[k])
      {
        if k == s {
          assert LastLabel(ps, k, i + 1) == Some(i);
        } else {
          assert !IsLabel(ps[i], k);
          assert LastLabel(ps, k, i + 1) == LastLabel(ps, k, i);
        }
      }
    } else {
      forall k
        ensures LastLabel(ps, k, i + 1) == LastLabel(ps, k, i)
      {
        assert !IsLabel(ps[i], k);
      }
    }
  }

  // ---------------------------------------------------------------------
  // Pass 2
  // ---------------------------------------------------------------------

  /** Pass 2 fails exactly when some line from `i` on fails to parse or to
      translate, and then with the error of the first such line; the
      symbol table it starts from plays no part. */
  lemma {:induction false} Pass2Outcome(lines: seq<string>, i: nat, st: SymbolTable)
    requires i <= |lines|
    ensures Pass2(lines, i, st).Failure? <==>
              exists j :: i <= j < |lines| && LineError(Parsed(lines), j).Some?
    ensures forall j :: FirstLineError(Parsed(lines), i, j) ==>
              Pass2(lines, i, st) == Failure(LineError(Parsed(lines), j).value)
    decreases |lines| - i
  {
    var ps := Parsed(lines);
    if i < |lines| {
      ParsedAt(lines, i);
      match ParseLine(lines[i], i)
      case Failure(e) =>
        assert LineError(ps, i).Some?;
      case Success(None) =>
        assert LineError(ps, i).None?;
        Pass2Outcome(lines, i + 1, st);
        Pass2OutcomeStep(ps, i);
      case Success(Some(c)) =>
        match ProcessCommand(c, i, st)
        case Failure(e) =>
          assert LineError(ps, i).Some?;
        case Success((word, st')) =>
          assert LineError(ps, i).None?;
          Pass2Outcome(lines, i + 1, st');
          Pass2OutcomeStep(ps, i);
    }
  }

  lemma Pass2OutcomeStep(ps: seq<Parse>, i: nat)
    requires i < |ps| && LineError(ps, i).None?
    ensures (exists j :: i <= j < |ps| && LineError(ps, j).Some?) <==>
            (exists j :: i + 1 <= j < |ps| && LineError(ps, j).Some?)
    ensures forall j :: FirstLineError(ps, i, j) ==> FirstLineError(ps, i + 1, j)
  {
  }

  /** What a successful pass 2 from line `i` produces: the expected words
      under the final table; the final table keeps every earlier binding
      and adds exactly the new variables, numbered from the counter in
      order of first use. */
  lemma {:induction false} Pass2Spec(lines: seq<string>, i: nat, st: SymbolTable,
                                     words: seq<string>, fin: SymbolTable)
    requires i <= |lines|
    requires Pass2(lines, i, st) == Success((words, fin))
    ensures Extends(st, fin)
    ensures words == ExpectedWords(Parsed(lines), i, fin.symbols)
    ensures VariablesAllocated(Variables(Parsed(lines), i, st.symbols.Keys), st, fin)
    decreases |lines| - i
  {
    var ps := Parsed(lines);
    if i < |lines| {
      ParsedAt(lines, i);
      ExpectedWordsStep(ps, i, fin.symbols);
      match ParseLine(lines[i], i)
      case Failure(e) =>
      case Success(None) =>
        Pass2Spec(lines, i + 1, st, words, fin);
      case Success(Some(c)) =>
        match ProcessCommand(c, i, st)
        case Failure(e) =>
        case Success((word, st')) =>
          if word == [] {
            assert c.LCommand? && st' == st;
            Pass2Spec(lines, i + 1, st, words, fin);
          } else {
            var rest := Pass2(lines, i + 1, st');
            var words', fin' := rest.value.0, rest.value.1;
            assert fin' == fin && words == [word] + words';
            Pass2Spec(lines, i + 1, st', words', fin);
            assert word == InstructionWord(c, fin.symbols) by {
              InstructionWordStable(c, i, st, fin);
            }
            Pass2Allocation(ps, i, c, word, st, st', fin);
          }
    }
  }

  /** The word translating an instruction gives is the word it stands for
      under any later table. */
  lemma InstructionWordStable(c: Command, n: int, st: SymbolTable, fin: SymbolTable)
    requires ProcessCommand(c, n, st).Success?
    requires Extends(ProcessCommand(c, n, st).value.1, fin)
    ensures !c.LCommand? ==> ProcessCommand(c, n, st).value.0 == InstructionWord(c, fin.symbols)
  {
  }

  lemma Pass2Allocation(ps: seq<Parse>, i: nat, c: Command, word: string,
                        st: SymbolTable, st': SymbolTable, fin: SymbolTable)
    requires i < |ps| && ps[i] == Success(Some(c))
    requires ProcessCommand(c, i, st) == Success((word, st'))
    requires Extends(st', fin)
    requires VariablesAllocated(Variables(ps, i + 1, st'.symbols.Keys), st', fin)
    ensures VariablesAllocated(Variables(ps, i, st.symbols.Keys), st, fin)
  {
    var known := st.symbols.Keys;
    if c.ACommand? && Atoi(c.symbol).None? && c.symbol !in known {
      var s := c.symbol;
      assert st' == SymbolTable(st.symbols[s := st.next], st.next + 1);
      assert st'.symbols.Keys == known + {s};
      AllocationStep(s, Variables(ps, i + 1, known + {s}), st, st', fin);
    } else {
      assert st' == st;
    }
  }

  lemma AllocationStep(s: string, vs': seq<string>, st: SymbolTable, st': SymbolTable, fin: SymbolTable)
    requires s !in st.symbols
    requires st' == SymbolTable(st.symbols[s := st.next], st.next + 1)
    requires Extends(st', fin)
    requires VariablesAllocated(vs', st', fin)
    ensures VariablesAllocated([s] + vs', st, fin)
  {
    var vs := [s] + vs';
    forall a | 0 <= a < |vs|
      ensures vs[a] in fin.symbols && fin.symbols[vs[a]] == st.next + a
    {
      if a > 0 {
        assert vs[a] == vs'[a - 1];
      }
    }
  }

  // ---------------------------------------------------------------------
  // The whole run
  // ---------------------------------------------------------------------

  /** A run fails exactly when some line fails to parse or to translate.
      A parse error anywhere wins, since pass 1 reads every line before
      pass 2 starts: the run then reports the first line that does not
      parse. Otherwise it reports the first line that does not translate. */
  lemma AssembleOutcome(lines: seq<string>)
    ensures Assemble(lines).Failure? <==> exists j :: 0 <= j < |lines| && LineError(Parsed(lines), j).Some?
    ensures forall j :: FirstParseFailure(Parsed(lines), 0, j) ==>
              Assemble(lines) == Failure(Parsed(lines)[j].error)
    ensures (forall k :: 0 <= k < |lines| ==> Parsed(lines)[k].Success?) ==>
              forall j :: FirstLineError(Parsed(lines), 0, j) ==>
                Assemble(lines) == Failure(LineError(Parsed(lines), j).value)
  {
    var init := InitSymbolTable();
    var ps := Parsed(lines);
    Pass1Outcome(lines, 0, 0, init.symbols);
    match Pass1(lines, 0, 0, init.symbols)
    case Failure(e) =>
      var j :| 0 <= j < |lines| && ps[j].Failure?;
      assert LineError(ps, j).Some?;
    case Success(labels) =>
      Pass2Outcome(lines, 0, SymbolTable(labels, init.next));
  }

  /** A name is a label name exactly when some line declares it. */
  lemma LabelNamesDeclared(ps: seq<Parse>, k: string)
    ensures k in LabelNames(ps) <==> LastLabel(ps, k, |ps|).Some?
  {
    if k in LabelNames(ps) {
      var j :| 0 <= j < |ps| && ps[j].Success? && ps[j].value.Some? && ps[j].value.value.LCommand?
                && ps[j].value.value.symbol == k;
      assert IsLabel(ps[j], k);
    }
  }

  /** `symbols` is the table a run over `ps` ends with: the names of
      `init`, every label bound to the ROM address of its last declaration
      (a label overrides a predefined name), and every other non-literal
      A-command symbol bound to 16, 17, ... in order of first use. */
  ghost predicate FinalTable(ps: seq<Parse>, init: map<string, int>, symbols: map<string, int>) {
    var known := init.Keys + LabelNames(ps);
    var vs := Variables(ps, 0, known);
    && (forall k :: k in symbols <==> k in known || k in vs)
    && (forall k :: k in symbols && LastLabel(ps, k, |ps|).Some? ==>
          symbols[k] == RomAt(ps, LastLabel(ps, k, |ps|).value))
    && (forall k :: k in init && LastLabel(ps, k, |ps|).None? ==> symbols[k] == init[k])
    && (forall a :: 0 <= a < |vs| ==> symbols[vs[a]] == VariableBase + a)
  }

  /** At most one table fits that description. */
  lemma FinalTableUnique(ps: seq<Parse>, init: map<string, int>, s1: map<string, int>, s2: map<string, int>)
    requires FinalTable(ps, init, s1) && FinalTable(ps, init, s2)
    ensures s1 == s2
  {
    var vs := Variables(ps, 0, init.Keys + LabelNames(ps));
    forall k | k in s1
      ensures s1[k] == s2[k]
    {
      LabelNamesDeclared(ps, k);
      if LastLabel(ps, k, |ps|).None? && k !in init {
        var a :| 0 <= a < |vs| && vs[a] == k;
      }
    }
  }

  /** The tables the two passes build satisfy that description. */
  lemma FinalTableOfRun(ps: seq<Parse>, init: map<string, int>, labels: map<string, int>, fin: SymbolTable)
    requires LabelsBound(ps, |ps|, init, labels)
    requires Extends(SymbolTable(labels, VariableBase), fin)
    requires VariablesAllocated(Variables(ps, 0, labels.Keys), SymbolTable(labels, VariableBase), fin)
    ensures FinalTable(ps, init, fin.symbols)
  {
    LabelKeys(ps, init, labels);
  }

  /** After pass 1 the names bound are the predefined ones and the labels. */
  lemma LabelKeys(ps: seq<Parse>, init: map<string, int>, labels: map<string, int>)
    requires LabelsBound(ps, |ps|, init, labels)
    ensures labels.Keys == init.Keys + LabelNames(ps)
  {
    forall k
      ensures k in labels <==> k in init.Keys + LabelNames(ps)
    {
      LabelNamesDeclared(ps, k);
    }
  }

  /** A successful run emits the expected words under the final table. */
  lemma AssembleCorrect(lines: seq<string>, out: seq<string>)
    requires Assemble(lines) == Success(out)
    ensures exists symbols :: FinalTable(Parsed(lines), InitSymbolTable().symbols, symbols)
                              && out == ExpectedWords(Parsed(lines), 0, symbols)
  {
    var init := InitSymbolTable();
    var ps := Parsed(lines);
    var labels := Pass1(lines, 0, 0, init.symbols).value;
    assert LabelsBound(ps, 0, init.symbols, init.symbols);
    assert RomAt(ps, 0) == 0;
    Pass1Binds(lines, 0, init.symbols, init.symbols, labels);
    var st := SymbolTable(labels, init.next);
    var run := Pass2(lines, 0, st).value;
    var words, fin := run.0, run.1;
    Pass2Spec(lines, 0, st, words, fin);
    FinalTableOfRun(ps, init.symbols, labels, fin);
    assert FinalTable(ps, init.symbols, fin.symbols) && out == ExpectedWords(ps, 0, fin.symbols);
  }

  /** Under the final table a successful run emits one word per A or C
      command, and the command on line `j` gets the word at its ROM
      address. */
  lemma AssembleWords(lines: seq<string>, out: seq<string>, symbols: map<string, int>)
    requires Assemble(lines) == Success(out)
    requires FinalTable(Parsed(lines), InitSymbolTable().symbols, symbols)
    ensures |out| == RomAt(Parsed(lines), |lines|)
    ensures forall j :: 0 <= j < |lines| && IsInstruction(Parsed(lines)[j]) ==>
              && RomAt(Parsed(lines), j) < |out|
              && out[RomAt(Parsed(lines), j)] == InstructionWord(Parsed(lines)[j].value.value, symbols)
  {
    var ps := Parsed(lines);
    AssembleCorrect(lines, out);
    var s :| FinalTable(ps, InitSymbolTable().symbols, s) && out == ExpectedWords(ps, 0, s);
    FinalTableUnique(ps, InitSymbolTable().symbols, s, symbols);
    WordsOfTable(ps, symbols, out);
  }

  lemma WordsOfTable(ps: seq<Parse>, symbols: map<string, int>, out: seq<string>)
    requires out == ExpectedWords(ps, 0, symbols)
    ensures |out| == RomAt(ps, |ps|)
    ensures forall j :: 0 <= j < |ps| && IsInstruction(ps[j]) ==>
              && RomAt(ps, j) < |out|
              && out[RomAt(ps, j)] == InstructionWord(ps[j].value.value, symbols)
  {
    ExpectedWordsLength(ps, symbols);
    forall j | 0 <= j < |ps| && IsInstruction(ps[j])
      ensures RomAt(ps, j) < |out|
      ensures out[RomAt(ps, j)] == InstructionWord(ps[j].value.value, symbols)
    {
      ExpectedWordAt(ps, symbols, j);
      LineWordsAt(ps, j, symbols);
    }
  }
}

=== FILE: errors.dfy ===
/** Failure values of an assembly run and the wrappers that carry them. */
module Errors {

  /** Everything that stops an assembly run. Each variant carries the line
      number the driver hands to the parser and the translator, which is the
      0-based position of the line in the input. */
  datatype Error =
    | EmptySymbol(line: int)                   // "@" or "()" with nothing inside
    | LabelSliceOutOfRange(line: int)          // a lone "(": the slice [1:0] is a run-time panic
    | MalformedCompute(line: int)              // "could not parse C_COMMAND"
    | JumpBeforeAssign(line: int)              // ";" before "=" in one word
    | EmptyComp(line: int)                     // "=" directly followed by ";"
    | TrailingTokens(line: int)                // a second word that is not a comment
    | UnknownComp(value: string, line: int)
    | UnknownDest(value: string, line: int)
    | UnknownJump(value: string, line: int)
    | NumberTooBig(line: int)                  // a decimal literal above 32767

  datatype Option<+T> = None | Some(value: T)

  /** Either a value or the first error met; failure carries no partial value. */
  datatype Result<+T> = Success(value: T) | Failure(error: Error)
}

=== FILE: findings.dfy ===
/** The driver as the source writes it, where the next free variable
    address is stored in the symbol table itself under an ordinary name.
    A program that uses that name as a label resets the counter, and its
    variables then land on the registers; a program that uses it as a
    variable reads the counter and shares its address with the next
    variable. The rest of the model keeps the counter apart
    (`Translator.SymbolTable`). */
module SharedCounter {
  import opened Errors
  import opened Numbers
  import opened Text
  import opened Parser
  import opened Translator
  import opened Assembler

  /** The name under which the counter is kept. */
  const CounterKey: string := "NEXT_AVAILABLE_ADDRESS"

  /** The predefined names plus the counter entry. */
  function SharedInit(): map<string, int> {
    InitSymbolTable().symbols[CounterKey := VariableBase]
  }

  /** Translation with the counter read from, and written back to, the
      table; a missing entry reads as 0. */
  function ProcessShared(c: Command, n: int, symbols: map<string, int>): (r: Result<(string, map<string, int>)>)
    ensures r.Failure? <==> CommandError(c, n).Some?
    ensures r.Failure? ==> r.error == CommandError(c, n).value
    ensures r.Success? && !c.ACommand? ==> r.value.1 == symbols
  {
    match c
    case ACommand(s) =>
      (match Atoi(s)
       case Some(v) =>
         if v > MaxLiteral then Failure(NumberTooBig(n)) else Success((AddressWord(v), symbols))
       case None =>
         if s in symbols then Success((AddressWord(symbols[s]), symbols))
         else
           var next := if CounterKey in symbols then symbols[CounterKey] else 0;
           var t := symbols[s := next][CounterKey := next + 1];
           Success((AddressWord(t[s]), t)))
    case _ =>
      match ProcessCommand(c, n, SymbolTable(symbols, 0))
      case Failure(e) => Failure(e)
      case Success((word, _)) => Success((word, symbols))
  }

  function Pass2Shared(lines: seq<string>, i: nat, symbols: map<string, int>): Result<seq<string>>
    requires i <= |lines|
    decreases |lines| - i
  {
    if i == |lines| then Success([])
    else
      match ParseLine(lines[i], i)
      case Failure(e) => Failure(e)
      case Success(None) => Pass2Shared(lines, i + 1, symbols)
      case Success(Some(c)) =>
        match ProcessShared(c, i, symbols)
        case Failure(e) => Failure(e)
        case Success((word, t)) =>
          if word == [] then Pass2Shared(lines, i + 1, t)
          else
            match Pass2Shared(lines, i + 1, t)
            case Failure(e) => Failure(e)
            case Success(words) => Success([word] + words)
  }

  function AssembleShared(lines: seq<string>): Result<seq<string>> {
    match Pass1(lines, 0, 0, SharedInit())
    case Failure(e) => Failure(e)
    case Success(labels) => Pass2Shared(lines, 0, labels)
  }

  /** Pass 1 over a label and then an instruction binds the label to 0. */
  lemma LabelThenUsePass1(lines: seq<string>, name: string, s: string, m: map<string, int>)
    requires |lines| == 2
    requires ParseLine(lines[0], 0) == Success(Some(LCommand(name)))
    requires ParseLine(lines[1], 1) == Success(Some(ACommand(s)))
    ensures Pass1(lines, 0, 0, m) == Success(m[name := 0])
  {
    assert Pass1(lines, 2, 1, m[name := 0]) == Success(m[name := 0]);
    assert Pass1(lines, 1, 0, m[name := 0]) == Success(m[name := 0]);
  }

  /** Pass 2 with the shared counter, after the counter was reset to 0. */
  lemma SharedPass2(lines: seq<string>, s: string, labels: map<string, int>)
    requires |lines| == 2 && s !in labels && Atoi(s).None?
    requires labels == SharedInit()[CounterKey := 0]
    requires ParseLine(lines[0], 0) == Success(Some(LCommand(CounterKey)))
    requires ParseLine(lines[1], 1) == Success(Some(ACommand(s)))
    ensures Pass2Shared(lines, 0, labels) == Success([AddressWord(0)])
  {
    SharedLabelStep(lines, 0, CounterKey, labels);
    SharedLastFresh(lines, s, CounterKey, labels);
  }

  /** A label line emits nothing in pass 2 and leaves the map alone. */
  lemma SharedLabelStep(lines: seq<string>, i: nat, name: string, m: map<string, int>)
    requires i < |lines| && ParseLine(lines[i], i) == Success(Some(LCommand(name)))
    ensures Pass2Shared(lines, i, m) == Pass2Shared(lines, i + 1, m)
  {
  }

  /** Pass 2 with the counter kept apart. */
  lemma SeparatePass2(lines: seq<string>, name: string, s: string, st: SymbolTable)
    requires |lines| == 2 && s !in st.symbols && Atoi(s).None?
    requires ParseLine(lines[0], 0) == Success(Some(LCommand(name)))
    requires ParseLine(lines[1], 1) == Success(Some(ACommand(s)))
    ensures Pass2(lines, 0, st).Success? && Pass2(lines, 0, st).value.0 == [AddressWord(st.next)]
  {
    SeparateLabelStep(lines, 0, name, st);
    SeparateLastFresh(lines, s, st);
  }

  /** A label line emits nothing in pass 2 and leaves the table alone. */
  lemma SeparateLabelStep(lines: seq<string>, i: nat, name: string, st: SymbolTable)
    requires i < |lines| && ParseLine(lines[i], i) == Success(Some(LCommand(name)))
    ensures Pass2(lines, i, st) == Pass2(lines, i + 1, st)
  {
  }

  /** The two lines of the example parse to the two commands. */
  lemma CollisionParses(s: string)
    requires s != [] && IsWord(s)
    ensures ParseLine(CommandText(LCommand(CounterKey)), 0) == Success(Some(LCommand(CounterKey)))
    ensures ParseLine(CommandText(ACommand(s)), 1) == Success(Some(ACommand(s)))
  {
    var decl := LCommand(CounterKey);
    assert WellFormed(decl);
    ParseLineOfText(decl, [], 0);
    assert Unwords([CommandText(decl)]) == CommandText(decl);
    AddressLineParses(s, 1);
  }

  /** `@s` alone on a line parses to the A command. */
  lemma AddressLineParses(s: string, n: int)
    requires s != [] && IsWord(s)
    ensures ParseLine(CommandText(ACommand(s)), n) == Success(Some(ACommand(s)))
  {
    var use := ACommand(s);
    assert WellFormed(use);
    ParseLineOfText(use, [], n);
    assert Unwords([CommandText(use)]) == CommandText(use);
  }

  lemma SharedRun(lines: seq<string>, s: string)
    requires |lines| == 2 && Atoi(s).None? && s !in SharedInit()
    requires ParseLine(lines[0], 0) == Success(Some(LCommand(CounterKey)))
    requires ParseLine(lines[1], 1) == Success(Some(ACommand(s)))
    ensures AssembleShared(lines) == Success([AddressWord(0)])
  {
    LabelThenUsePass1(lines, CounterKey, s, SharedInit());
    SharedPass2(lines, s, SharedInit()[CounterKey := 0]);
  }

  lemma SeparateRun(lines: seq<string>, s: string)
    requires |lines| == 2 && Atoi(s).None? && s !in SharedInit()
    requires ParseLine(lines[0], 0) == Success(Some(LCommand(CounterKey)))
    requires ParseLine(lines[1], 1) == Success(Some(ACommand(s)))
    ensures Assemble(lines) == Success([AddressWord(VariableBase)])
  {
    var init := InitSymbolTable();
    LabelThenUsePass1(lines, CounterKey, s, init.symbols);
    SeparatePass2(lines, CounterKey, s, SymbolTable(init.symbols[CounterKey := 0], init.next));
  }

  /** A label named like the counter, declared at ROM address 0, followed
      by a fresh symbol: with the shared counter the symbol gets address 0,
      the address of R0 and SP; with the counter kept apart it gets 16. */
  lemma CounterLabelCollision(s: string)
    requires s != [] && IsWord(s) && Atoi(s).None? && s !in SharedInit()
    ensures var lines := [CommandText(LCommand(CounterKey)), CommandText(ACommand(s))];
      && AssembleShared(lines) == Success([AddressWord(0)])
      && Assemble(lines) == Success([AddressWord(VariableBase)])
      && InitSymbolTable().symbols["R0"] == 0
  {
    var lines := [CommandText(LCommand(CounterKey)), CommandText(ACommand(s))];
    CollisionParses(s);
    SharedRun(lines, s);
    SeparateRun(lines, s);
  }

  /** Pass 1 over two A commands binds nothing. */
  lemma TwoUsesPass1(lines: seq<string>, a: string, b: string, m: map<string, int>)
    requires |lines| == 2
    requires ParseLine(lines[0], 0) == Success(Some(ACommand(a)))
    requires ParseLine(lines[1], 1) == Success(Some(ACommand(b)))
    ensures Pass1(lines, 0, 0, m) == Success(m)
  {
    assert Pass1(lines, 2, 2, m) == Success(m);
    assert Pass1(lines, 1, 1, m) == Success(m);
  }

  lemma CounterKeyWord()
    ensures CounterKey != [] && IsWord(CounterKey)
  {
  }

  lemma CounterKeyNotNumber()
    ensures Atoi(CounterKey).None? && CounterKey !in InitSymbolTable().symbols
    ensures CounterKey in SharedInit() && SharedInit()[CounterKey] == VariableBase
  {
    AtoiAccepts(CounterKey);
    assert !IsDigit(CounterKey[0]);
  }

  /** The whole run with the shared counter over `@NEXT_AVAILABLE_ADDRESS`
      and then a fresh symbol. */
  lemma SharedUseRun(lines: seq<string>, s: string)
    requires |lines| == 2 && Atoi(s).None? && s !in SharedInit()
    requires ParseLine(lines[0], 0) == Success(Some(ACommand(CounterKey)))
    requires ParseLine(lines[1], 1) == Success(Some(ACommand(s)))
    ensures AssembleShared(lines) == Success([AddressWord(VariableBase), AddressWord(VariableBase)])
  {
    TwoUsesPass1(lines, CounterKey, s, SharedInit());
    CounterKeyNotNumber();
    SharedCounterUsePass2(lines, CounterKey, s, SharedInit());
  }

  /** The whole run with the counter kept apart over the same lines. */
  lemma SeparateUseRun(lines: seq<string>, s: string)
    requires |lines| == 2 && Atoi(s).None? && s !in SharedInit()
    requires ParseLine(lines[0], 0) == Success(Some(ACommand(CounterKey)))
    requires ParseLine(lines[1], 1) == Success(Some(ACommand(s)))
    ensures Assemble(lines) == Success([AddressWord(VariableBase), AddressWord(VariableBase + 1)])
  {
    TwoUsesPass1(lines, CounterKey, s, InitSymbolTable().symbols);
    CounterKeyNotNumber();
    PredefinedRegisters(0);
    SeparateCounterUsePass2(lines, CounterKey, s, InitSymbolTable());
  }

  /** Pass 2 with the shared counter over `@NEXT_AVAILABLE_ADDRESS` and then
      a fresh symbol: the first finds the counter's own entry and allocates
      nothing, so the second gets the same address. */
  lemma SharedCounterUsePass2(lines: seq<string>, key: string, s: string, m: map<string, int>)
    requires |lines| == 2 && key == CounterKey && key in m && s !in m
    requires Atoi(s).None? && Atoi(key).None?
    requires ParseLine(lines[0], 0) == Success(Some(ACommand(key)))
    requires ParseLine(lines[1], 1) == Success(Some(ACommand(s)))
    ensures Pass2Shared(lines, 0, m) == Success([AddressWord(m[key]), AddressWord(m[key])])
  {
    var w := AddressWord(m[key]);
    SharedLastFresh(lines, s, key, m);
    SharedKnownUse(lines, 0, key, m, [w]);
    assert [w] + [w] == [w, w];
  }

  /** The last of two lines names a fresh symbol: it takes the counter. */
  lemma SharedLastFresh(lines: seq<string>, s: string, key: string, m: map<string, int>)
    requires |lines| == 2 && Atoi(s).None? && s !in m && key == CounterKey && key in m
    requires ParseLine(lines[1], 1) == Success(Some(ACommand(s)))
    ensures Pass2Shared(lines, 1, m) == Success([AddressWord(m[key])])
  {
    SharedEnd(lines, m[s := m[key]][key := m[key] + 1]);
    SharedFreshUse(lines, 1, s, key, m, []);
    assert [AddressWord(m[key])] + [] == [AddressWord(m[key])];
  }

  /** A line naming a bound symbol, in pass 2 with the shared counter. */
  lemma SharedKnownUse(lines: seq<string>, i: nat, s: string, m: map<string, int>, ws: seq<string>)
    requires i < |lines| && Atoi(s).None? && s in m
    requires ParseLine(lines[i], i) == Success(Some(ACommand(s)))
    requires Pass2Shared(lines, i + 1, m) == Success(ws)
    ensures Pass2Shared(lines, i, m) == Success([AddressWord(m[s])] + ws)
  {
    SharedLookup(s, i, m);
    SharedEmit(lines, i, m, ACommand(s), AddressWord(m[s]), m, ws);
  }

  /** A line naming a fresh symbol, in pass 2 with the shared counter. */
  lemma SharedFreshUse(lines: seq<string>, i: nat, s: string, key: string, m: map<string, int>, ws: seq<string>)
    requires i < |lines| && Atoi(s).None? && s !in m && key == CounterKey && key in m
    requires ParseLine(lines[i], i) == Success(Some(ACommand(s)))
    requires Pass2Shared(lines, i + 1, m[s := m[key]][key := m[key] + 1]) == Success(ws)
    ensures Pass2Shared(lines, i, m) == Success([AddressWord(m[key])] + ws)
  {
    SharedAllocate(s, key, i, m);
    SharedEmit(lines, i, m, ACommand(s), AddressWord(m[key]), m[s := m[key]][key := m[key] + 1], ws);
  }

  /** As written, a known name encodes its entry and allocates nothing. */
  lemma SharedLookup(s: string, n: int, m: map<string, int>)
    requires Atoi(s).None? && s in m
    ensures ProcessShared(ACommand(s), n, m) == Success((AddressWord(m[s]), m))
  {
  }

  /** As written, an unknown name takes the counter entry's value, and the
      entry moves up by one. */
  lemma SharedAllocate(s: string, key: string, n: int, m: map<string, int>)
    requires Atoi(s).None? && s !in m && key == CounterKey && key in m
    ensures ProcessShared(ACommand(s), n, m) ==
      Success((AddressWord(m[key]), m[s := m[key]][key := m[key] + 1]))
  {
  }

  /** The shared-counter pass 2 past the last line emits nothing. */
  lemma SharedEnd(lines: seq<string>, m: map<string, int>)
    ensures Pass2Shared(lines, |lines|, m) == Success([])
  {
  }

  /** One step of the shared-counter pass 2 over a line that emits a word. */
  lemma SharedEmit(lines: seq<string>, i: nat, m: map<string, int>, c: Command, w: string,
                   t: map<string, int>, ws: seq<string>)
    requires i < |lines| && ParseLine(lines[i], i) == Success(Some(c))
    requires ProcessShared(c, i, m) == Success((w, t)) && w != []
    requires Pass2Shared(lines, i + 1, t) == Success(ws)
    ensures Pass2Shared(lines, i, m) == Success([w] + ws)
  {
  }

  /** Pass 2 with the counter kept apart over the same two lines: the
      counter's name is an ordinary variable, so the two get consecutive
      addresses. */
  lemma SeparateCounterUsePass2(lines: seq<string>, key: string, s: string, st: SymbolTable)
    requires |lines| == 2 && s != key && key !in st.symbols && s !in st.symbols
    requires Atoi(s).None? && Atoi(key).None?
    requires ParseLine(lines[0], 0) == Success(Some(ACommand(key)))
    requires ParseLine(lines[1], 1) == Success(Some(ACommand(s)))
    ensures Pass2(lines, 0, st).Success?
    ensures Pass2(lines, 0, st).value.0 == [AddressWord(st.next), AddressWord(st.next + 1)]
  {
    var st1 := SymbolTable(st.symbols[key := st.next], st.next + 1);
    var st2 := SymbolTable(st1.symbols[s := st1.next], st1.next + 1);
    var w2 := AddressWord(st.next + 1);
    SeparateLastFresh(lines, s, st1);
    SeparateFreshUse(lines, 0, key, st, [w2], st2);
    assert [AddressWord(st.next)] + [w2] == [AddressWord(st.next), w2];
  }

  /** The last of two lines names a fresh symbol: it takes the next free
      address. */
  lemma SeparateLastFresh(lines: seq<string>, s: string, st: SymbolTable)
    requires |lines| == 2 && Atoi(s).None? && s !in st.symbols
    requires ParseLine(lines[1], 1) == Success(Some(ACommand(s)))
    ensures Pass2(lines, 1, st) ==
      Success(([AddressWord(st.next)], SymbolTable(st.symbols[s := st.next], st.next + 1)))
  {
    var fin := SymbolTable(st.symbols[s := st.next], st.next + 1);
    SeparateEnd(lines, fin);
    SeparateFreshUse(lines, 1, s, st, [], fin);
    assert [AddressWord(st.next)] + [] == [AddressWord(st.next)];
  }

  /** A line naming a fresh symbol, in pass 2: it gets the next free
      address. */
  lemma SeparateFreshUse(lines: seq<string>, i: nat, s: string, st: SymbolTable, ws: seq<string>, fin: SymbolTable)
    requires i < |lines| && Atoi(s).None? && s !in st.symbols
    requires ParseLine(lines[i], i) == Success(Some(ACommand(s)))
    requires Pass2(lines, i + 1, SymbolTable(st.symbols[s := st.next], st.next + 1)) == Success((ws, fin))
    ensures Pass2(lines, i, st) == Success(([AddressWord(st.next)] + ws, fin))
  {
    NewVariableStep(s, i, st);
    SeparateEmit(lines, i, st, ACommand(s), AddressWord(st.next), SymbolTable(st.symbols[s := st.next], st.next + 1), ws, fin);
  }

  /** The table after binding a fresh variable, as one value. */
  lemma NewVariableStep(s: string, n: int, st: SymbolTable)
    requires Atoi(s) == None && s !in st.symbols
    ensures ProcessCommand(ACommand(s), n, st) ==
      Success((AddressWord(st.next), SymbolTable(st.symbols[s := st.next], st.next + 1)))
  {
  }

  /** Pass 2 past the last line emits nothing and keeps the table. */
  lemma SeparateEnd(lines: seq<string>, st: SymbolTable)
    ensures Pass2(lines, |lines|, st) == Success(([], st))
  {
  }

  /** One step of pass 2 over a line that emits a word. */
  lemma SeparateEmit(lines: seq<string>, i: nat, st: SymbolTable, c: Command, w: string,
                     st': SymbolTable, ws: seq<string>, fin: SymbolTable)
    requires i < |lines| && ParseLine(lines[i], i) == Success(Some(c))
    requires ProcessCommand(c, i, st) == Success((w, st')) && w != []
    requires Pass2(lines, i + 1, st') == Success((ws, fin))
    ensures Pass2(lines, i, st) == Success(([w] + ws, fin))
  {
  }

  /** An A command naming the counter itself, then a fresh symbol `s`: as
      written both get address 16, so two different names share one word
      of memory; with the counter kept apart they get 16 and 17. */
  lemma CounterSymbolUse(s: string)
    requires s != [] && IsWord(s) && Atoi(s).None? && s !in SharedInit()
    ensures var lines := [CommandText(ACommand(CounterKey)), CommandText(ACommand(s))];
      && AssembleShared(lines) == Success([AddressWord(VariableBase), AddressWord(VariableBase)])
      && Assemble(lines) == Success([AddressWord(VariableBase), AddressWord(VariableBase + 1)])
  {
    var lines := [CommandText(ACommand(CounterKey)), CommandText(ACommand(s))];
    CounterKeyWord();
    AddressLineParses(CounterKey, 0);
    AddressLineParses(s, 1);
    SharedUseRun(lines, s);
    SeparateUseRun(lines, s);
  }
}

=== FILE: numbers.dfy ===
/** Decimal parsing and binary formatting of the integers an address
    command carries: the standard library's `strconv.Atoi` and the
    `%015b` verb of `fmt`, on a 64-bit platform. */
module Numbers {
  import opened Errors

  const MaxInt64: int := 0x7FFF_FFFF_FFFF_FFFF
  const MinInt64: int := -0x8000_0000_0000_0000

  predicate IsDigit(c: char) {
    '0' <= c <= '9'
  }

  predicate AllDigits(s: string) {
    forall i :: 0 <= i < |s| ==> IsDigit(s[i])
  }

  function DigitChar(d: nat): (c: char)
    requires d < 10
    ensures IsDigit(c)
  {
    ('0' as int + d) as char
  }

  /** Value of a string of decimal digits, most significant first. */
  function DigitsValue(s: string): nat
    requires AllDigits(s)
  {
    if s == [] then 0
    else 10 * DigitsValue(s[..|s| - 1]) + (s[|s| - 1] as int - '0' as int)
  }

  /** Decimal text of `n` without leading zeros. */
  function Decimal(n: nat): (s: string)
    ensures s != [] && AllDigits(s)
  {
    if n < 10 then [DigitChar(n)] else Decimal(n / 10) + [DigitChar(n % 10)]
  }

  /** `s` without its leading sign, if it has one. */
  function Unsigned(s: string): (body: string)
    ensures |body| == |s| || (|body| == |s| - 1 && body == s[1..] && (s[0] == '-' || s[0] == '+'))
  {
    if |s| > 0 && (s[0] == '-' || s[0] == '+') then s[1..] else s
  }

  /** `strconv.Atoi`: an optional sign followed by at least one ASCII digit,
      and a value that fits a 64-bit signed integer; anything else is an
      error, which is `None` here. */
  function Atoi(s: string): (r: Option<int>)
    ensures r.Some? ==> MinInt64 <= r.value <= MaxInt64
    ensures r.Some? ==> exists i :: 0 <= i < |s| && IsDigit(s[i])
  {
    var negative := |s| > 0 && s[0] == '-';
    var body := Unsigned(s);
    if body == [] || !AllDigits(body) then None
    else
      assert IsDigit(s[|s| - 1]) by { assert s[|s| - 1] == body[|body| - 1]; }
      var magnitude: int := DigitsValue(body);
      var v := if negative then -magnitude else magnitude;
      if v < MinInt64 || v > MaxInt64 then None else Some(v)
  }

  lemma {:induction false} DigitsValueOfDecimal(n: nat)
    ensures DigitsValue(Decimal(n)) == n
  {
    if n >= 10 {
      var s := Decimal(n);
      assert s[..|s| - 1] == Decimal(n / 10);
      DigitsValueOfDecimal(n / 10);
    }
  }

  /** Only an optional sign followed by a non-empty run of digits is a
      number: its magnitude is the value of the digits, and it is negative
      only after a '-'. Any other character after the sign, or a sign
      alone, is rejected. */
  lemma AtoiAccepts(s: string)
    ensures Atoi(s).Some? ==>
      && Unsigned(s) != [] && AllDigits(Unsigned(s))
      && DigitsValue(Unsigned(s)) == (if Atoi(s).value < 0 then -Atoi(s).value else Atoi(s).value)
      && (Atoi(s).value < 0 ==> s[0] == '-')
    ensures Unsigned(s) == [] ==> Atoi(s).None?
    ensures forall i :: |s| - |Unsigned(s)| <= i < |s| && !IsDigit(s[i]) ==> Atoi(s).None?
  {
    var body := Unsigned(s);
    forall i | |s| - |body| <= i < |s| && !IsDigit(s[i])
      ensures Atoi(s).None?
    {
      assert s[i] == body[i - (|s| - |body|)];
    }
  }

  /** Conversely, every optional sign followed by a non-empty run of
      digits is read, leading zeros included: its value is the digits'
      value, negated after a '-', when that fits 64 bits. */
  lemma AtoiOfDigits(s: string)
    requires Unsigned(s) != [] && AllDigits(Unsigned(s))
    ensures var m: int := DigitsValue(Unsigned(s));
      var v := if s[0] == '-' then -m else m;
      Atoi(s) == if MinInt64 <= v <= MaxInt64 then Some(v) else None
  {
  }

  /** Leading zeros do not change the value, and `-0...` reads as 0. */
  lemma AtoiLeadingZeros()
    ensures Atoi("007") == Some(7)
    ensures Atoi("-05") == Some(-5)
    ensures Atoi("-00") == Some(0)
  {
    AtoiOfDigits("007");
    AtoiOfDigits("-05");
    AtoiOfDigits("-00");
  }

  /** Decimal text round-trips through `Atoi`, with and without a sign, and
      beyond the 64-bit range it is not a number, with or without a sign. */
  lemma AtoiOfDecimal(n: nat)
    ensures n <= MaxInt64 ==> Atoi(Decimal(n)) == Some(n)
    ensures n <= MaxInt64 ==> Atoi("+" + Decimal(n)) == Some(n)
    ensures n <= -MinInt64 ==> Atoi("-" + Decimal(n)) == Some(-(n as int))
    ensures n > MaxInt64 ==> Atoi(Decimal(n)) == None
    ensures n > MaxInt64 ==> Atoi("+" + Decimal(n)) == None
    ensures n > -MinInt64 ==> Atoi("-" + Decimal(n)) == None
  {
    DigitsValueOfDecimal(n);
    AtoiOfSigned(n, '+');
    AtoiOfSigned(n, '-');
  }

  lemma AtoiOfSigned(n: nat, sign: char)
    requires sign == '+' || sign == '-'
    requires DigitsValue(Decimal(n)) == n
    ensures var v := if sign == '-' then -(n as int) else n;
      Atoi([sign] + Decimal(n)) == if MinInt64 <= v <= MaxInt64 then Some(v) else None
  {
    assert ([sign] + Decimal(n))[1..] == Decimal(n);
  }

  predicate IsBits(s: string) {
    forall i :: 0 <= i < |s| ==> s[i] == '0' || s[i] == '1'
  }

  /** Value of a string of binary digits, most significant first. */
  function BitsValue(s: string): nat
    requires IsBits(s)
  {
    if s == [] then 0
    else 2 * BitsValue(s[..|s| - 1]) + (if s[|s| - 1] == '1' then 1 else 0)
  }

  function Pow2(k: nat): nat {
    if k == 0 then 1 else 2 * Pow2(k - 1)
  }

  /** `%b` of a non-negative value: binary digits without leading zeros. */
  function BinaryDigits(n: nat): (s: string)
    ensures s != [] && IsBits(s)
  {
    if n < 2 then [if n == 1 then '1' else '0']
    else BinaryDigits(n / 2) + [if n % 2 == 1 then '1' else '0']
  }

  function Zeros(k: nat): (s: string)
    ensures |s| == k && IsBits(s)
  {
    if k == 0 then [] else Zeros(k - 1) + "0"
  }

  lemma {:induction false} ZerosAreZeros(k: nat)
    ensures forall i :: 0 <= i < k ==> Zeros(k)[i] == '0'
  {
    if k > 0 {
      ZerosAreZeros(k - 1);
    }
  }

  /** Left-pads `s` with zeros up to `width`; never shortens it. */
  function PadZeros(s: string, width: nat): string {
    if |s| < width then Zeros(width - |s|) + s else s
  }

  /** `fmt.Sprintf("%015b", n)`: zero padding to a width of 15, with the
      padding placed after the sign of a negative value. */
  function Format015b(n: int): string {
    if n >= 0 then PadZeros(BinaryDigits(n), 15)
    else "-" + PadZeros(BinaryDigits(-n), 14)
  }

  lemma {:induction false} BinaryDigitsValue(n: nat)
    ensures BitsValue(BinaryDigits(n)) == n
  {
    if n >= 2 {
      var s := BinaryDigits(n);
      assert s[..|s| - 1] == BinaryDigits(n / 2);
      BinaryDigitsValue(n / 2);
    }
  }

  /** `BinaryDigits(n)` has at most `k` digits exactly when `n < 2^k`. */
  lemma {:induction false} BinaryDigitsLength(n: nat, k: nat)
    requires k >= 1
    ensures |BinaryDigits(n)| <= k <==> n < Pow2(k)
  {
    Pow2Positive(k - 1);
    assert Pow2(k) == 2 * Pow2(k - 1);
    if n >= 2 {
      if k == 1 {
        assert |BinaryDigits(n)| >= 2;
      } else {
        BinaryDigitsLength(n / 2, k - 1);
        assert n < Pow2(k) <==> n / 2 < Pow2(k - 1);
      }
    }
  }

  lemma {:induction false} Pow2Positive(k: nat)
    ensures Pow2(k) >= 1
  {
    if k > 0 {
      Pow2Positive(k - 1);
    }
  }

  lemma {:induction false} BitsValueZerosPrefix(k: nat, s: string)
    requires IsBits(s)
    ensures IsBits(Zeros(k) + s) && BitsValue(Zeros(k) + s) == BitsValue(s)
    decreases |s|, k
  {
    var z := Zeros(k) + s;
    assert IsBits(z);
    if s == [] {
      assert z == Zeros(k);
      if k > 0 {
        assert z[..|z| - 1] == Zeros(k - 1) + [];
        BitsValueZerosPrefix(k - 1, []);
      }
    } else {
      assert z[..|z| - 1] == Zeros(k) + s[..|s| - 1];
      BitsValueZerosPrefix(k, s[..|s| - 1]);
    }
  }

  /** Every value in the 15-bit range formats as exactly 15 binary digits
      that read back as the value. */
  lemma Format015bInRange(n: int)
    requires 0 <= n < Pow2(15)
    ensures |Format015b(n)| == 15
    ensures IsBits(Format015b(n))
    ensures BitsValue(Format015b(n)) == n
  {
    BinaryDigitsLength(n, 15);
    BinaryDigitsValue(n);
    BitsValueZerosPrefix(15 - |BinaryDigits(n)|, BinaryDigits(n));
  }

  /** The padding never truncates: a value of 2^15 or more gives more than
      15 digits, still reading back as the value. */
  lemma Format015bNoTruncation(n: int)
    requires n >= Pow2(15)
    ensures |Format015b(n)| > 15
    ensures IsBits(Format015b(n)) && BitsValue(Format015b(n)) == n
  {
    BinaryDigitsLength(n, 15);
    BinaryDigitsValue(n);
  }

  /** A negative value formats with a leading '-', so it is not binary. */
  lemma Format015bNegative(n: int)
    requires n < 0
    ensures |Format015b(n)| >= 15
    ensures Format015b(n)[0] == '-' && !IsBits(Format015b(n))
    ensures (-n < Pow2(14)) == (|Format015b(n)| == 15)
  {
    BinaryDigitsLength(-n, 14);
  }
}

=== FILE: parser.dfy ===
/** Classification of one source line into an A, C or L command, a
    blank/comment line, or a parse error. */
module Parser {
  import opened Errors
  import opened Text

  /** The three command kinds. `dest` and `jump` of a C command may be
      empty, meaning the field was omitted. */
  datatype Command =
    | ACommand(symbol: string)
    | CCommand(dest: string, comp: string, jump: string)
    | LCommand(symbol: string)

  predicate IsComment(w: string) {
    "//" <= w
  }

  /** Classifies the first word of a line, which is not a comment. */
  function ParseWord(w: string, n: int): (r: Result<Command>)
    requires w != []
  {
    if "@" <= w then
      var symbol := w[1..];
      if |symbol| == 0 then Failure(EmptySymbol(n)) else Success(ACommand(symbol))
    else if "(" <= w then
      if |w| < 2 then Failure(LabelSliceOutOfRange(n))
      else
        var symbol := w[1..|w| - 1];
        if |symbol| == 0 then Failure(EmptySymbol(n)) else Success(LCommand(symbol))
    else
      ParseCompute(w, n)
  }

  /** Splits a C-command word at its first '=' and its first ';'. */
  function ParseCompute(w: string, n: int): (r: Result<Command>)
    requires w != []
  {
    var eq := IndexOf(w, '=');
    var sc := IndexOf(w, ';');
    if eq == |w| - 1 || sc == |w| - 1 || eq == 0 || sc == 0 then
      Failure(MalformedCompute(n))
    else if eq != -1 && sc != -1 then
      if eq > sc then Failure(JumpBeforeAssign(n))
      else if sc - eq == 1 then Failure(EmptyComp(n))
      else Success(CCommand(w[..eq], w[eq + 1..sc], w[sc + 1..]))
    else if eq == -1 && sc != -1 then
      Success(CCommand("", w[..sc], w[sc + 1..]))
    else if eq != -1 && sc == -1 then
      Success(CCommand(w[..eq], w[eq + 1..], ""))
    else
      Failure(MalformedCompute(n))
  }

  /** One line: nothing for a blank or comment line, otherwise the command
      its first word denotes; a second word must be a comment, and any
      later words are never looked at. */
  function ParseLine(line: string, n: int): (r: Result<Option<Command>>)
    ensures r == Success(None) <==> Words(line) == [] || IsComment(Words(line)[0])
    ensures r.Success? && r.value.Some? ==>
              && ParseWord(Words(line)[0], n) == Success(r.value.value)
              && (|Words(line)| > 1 ==> IsComment(Words(line)[1]))
  {
    var ws := Words(line);
    if ws == [] then Success(None)
    else if IsComment(ws[0]) then Success(None)
    else
      match ParseWord(ws[0], n)
      case Failure(e) => Failure(e)
      case Success(c) =>
        if |ws| > 1 && !IsComment(ws[1]) then Failure(TrailingTokens(n))
        else Success(Some(c))
  }

  /** The canonical source text of a command. */
  function CommandText(c: Command): string {
    match c
    case ACommand(s) => "@" + s
    case LCommand(s) => "(" + s + ")"
    case CCommand(d, cp, j) =>
      (if d == [] then [] else d + "=") + cp + (if j == [] then [] else ";" + j)
  }

  predicate NoSeparator(s: string) {
    '=' !in s && ';' !in s
  }

  /** Commands whose canonical text parses back to them. */
  predicate WellFormed(c: Command) {
    match c
    case ACommand(s) => s != [] && IsWord(s)
    case LCommand(s) => s != [] && IsWord(s)
    case CCommand(d, cp, j) =>
      && (d == [] || IsWord(d)) && IsWord(cp) && (j == [] || IsWord(j))
      && NoSeparator(d) && NoSeparator(cp) && NoSeparator(j)
      && (d != [] || j != [])
      && var w := CommandText(c); w[0] != '@' && w[0] != '(' && !IsComment(w)
  }

  /** An A command is everything after the '@'; nothing after it is an error. */
  lemma ParseWordAddress(s: string, n: int)
    ensures ParseWord("@" + s, n) == if s == [] then Failure(EmptySymbol(n)) else Success(ACommand(s))
  {
    assert ("@" + s)[1..] == s;
  }

  /** An L command drops the first and the last character, whatever that
      last character is; a lone "(" has no symbol to slice. */
  lemma ParseWordLabel(s: string, last: char, n: int)
    ensures ParseWord("(" + s + [last], n) == if s == [] then Failure(EmptySymbol(n)) else Success(LCommand(s))
    ensures ParseWord("(", n) == Failure(LabelSliceOutOfRange(n))
  {
    var w := "(" + s + [last];
    assert w[..1] == "(" && w[0] != '@';
    assert w[1..|w| - 1] == s;
  }

  /** The error cases of a C-command word, each in both directions. */
  lemma ParseComputeErrors(w: string, n: int)
    requires w != []
    ensures var eq, sc := IndexOf(w, '='), IndexOf(w, ';');
      && (ParseCompute(w, n) == Failure(MalformedCompute(n)) <==>
            eq == 0 || sc == 0 || eq == |w| - 1 || sc == |w| - 1 || (eq == -1 && sc == -1))
      && (ParseCompute(w, n) == Failure(JumpBeforeAssign(n)) <==>
            0 < sc < eq < |w| - 1)
      && (ParseCompute(w, n) == Failure(EmptyComp(n)) <==>
            0 < eq && eq + 1 == sc && sc < |w| - 1)
    ensures ParseCompute(w, n).Failure? ==>
      ParseCompute(w, n).error in {MalformedCompute(n), JumpBeforeAssign(n), EmptyComp(n)}
  {
  }

  /** A successful C-command split loses nothing: the canonical text of
      the command is the word, comp is never empty, and dest (jump) is
      present exactly when the word has an '=' (a ';'). */
  lemma ParseComputeShape(w: string, n: int)
    requires w != [] && ParseCompute(w, n).Success?
    ensures var c := ParseCompute(w, n).value;
      && c.CCommand?
      && CommandText(c) == w
      && c.comp != []
      && (c.dest != [] <==> '=' in w)
      && (c.jump != [] <==> ';' in w)
      && NoSeparator(c.dest) && ';' !in c.comp
  {
    var eq, sc := IndexOf(w, '='), IndexOf(w, ';');
    if eq != -1 && sc != -1 {
      ShapeDestAndJump(w, n, eq, sc);
    } else if eq == -1 {
      ShapeJumpOnly(w, n, sc);
    } else {
      ShapeDestOnly(w, n, eq);
    }
  }

  lemma ShapeDestAndJump(w: string, n: int, eq: int, sc: int)
    requires w != [] && ParseCompute(w, n).Success?
    requires eq == IndexOf(w, '=') && sc == IndexOf(w, ';') && eq != -1 && sc != -1
    ensures var c := ParseCompute(w, n).value;
      && CommandText(c) == w && c.comp != [] && c.dest != [] && c.jump != []
      && NoSeparator(c.dest) && ';' !in c.comp
  {
    assert 0 < eq && eq + 1 < sc < |w| - 1;
    assert ParseCompute(w, n).value == CCommand(w[..eq], w[eq + 1..sc], w[sc + 1..]);
    DestAndJumpText(w, eq, sc);
  }

  /** Cutting a word at an '=' and a later ';' and joining the pieces back
      gives the word; the pieces before the ';' hold no ';'. */
  lemma DestAndJumpText(w: string, eq: int, sc: int)
    requires 0 < eq && eq + 1 < sc < |w| - 1
    requires w[eq] == '=' && w[sc] == ';' && ';' !in w[..sc] && '=' !in w[..eq]
    ensures var c := CCommand(w[..eq], w[eq + 1..sc], w[sc + 1..]);
      && CommandText(c) == w && NoSeparator(c.dest) && ';' !in c.comp
  {
    SplitBoth(w, eq, sc);
    var c := CCommand(w[..eq], w[eq + 1..sc], w[sc + 1..]);
    assert CommandText(c) == w[..eq] + "=" + w[eq + 1..sc] + ";" + w[sc + 1..];
    assert w[eq + 1..sc] == w[..sc][eq + 1..];
  }

  lemma ShapeJumpOnly(w: string, n: int, sc: int)
    requires w != [] && ParseCompute(w, n).Success?
    requires IndexOf(w, '=') == -1 && sc == IndexOf(w, ';')
    ensures var c := ParseCompute(w, n).value;
      && CommandText(c) == w && c.comp != [] && c.dest == [] && c.jump != [] && ';' !in c.comp
  {
    var c := CCommand("", w[..sc], w[sc + 1..]);
    assert ParseCompute(w, n).value == c;
    SplitAt(w, sc, ';');
    assert CommandText(c) == w[..sc] + ";" + w[sc + 1..];
  }

  lemma ShapeDestOnly(w: string, n: int, eq: int)
    requires w != [] && ParseCompute(w, n).Success?
    requires eq == IndexOf(w, '=') && IndexOf(w, ';') == -1
    ensures var c := ParseCompute(w, n).value;
      && CommandText(c) == w && c.comp != [] && c.dest != [] && c.jump == []
      && NoSeparator(c.dest) && ';' !in c.comp
  {
    var c := CCommand(w[..eq], w[eq + 1..], "");
    assert ParseCompute(w, n).value == c;
    SplitAt(w, eq, '=');
    assert CommandText(c) == w[..eq] + "=" + w[eq + 1..];
    assert c.dest == w[..eq];
  }

  lemma SplitAt(w: string, i: int, sep: char)
    requires 0 < i < |w| - 1 && w[i] == sep
    ensures w == w[..i] + [sep] + w[i + 1..]
  {
  }

  lemma SplitBoth(w: string, eq: int, sc: int)
    requires 0 < eq && eq + 1 < sc < |w| - 1
    requires w[eq] == '=' && w[sc] == ';'
    requires ';' !in w[..sc]
    ensures w == w[..eq] + "=" + w[eq + 1..sc] + ";" + w[sc + 1..]
    ensures ';' !in w[..eq]
  {
    assert w[..eq] == w[..sc][..eq];
  }

  /** The canonical text of a well-formed command parses back to it. */
  lemma ParseWordOfText(c: Command, n: int)
    requires WellFormed(c)
    ensures ParseWord(CommandText(c), n) == Success(c)
  {
    match c
    case ACommand(s) => ParseWordAddress(s, n);
    case LCommand(s) => ParseWordLabel(s, ')', n);
    case CCommand(d, cp, j) =>
      var w := CommandText(c);
      assert !("@" <= w) && !("(" <= w);
      ParseComputeOfText(d, cp, j, n);
  }

  lemma ParseComputeOfText(d: string, cp: string, j: string, n: int)
    requires WellFormed(CCommand(d, cp, j))
    ensures ParseCompute(CommandText(CCommand(d, cp, j)), n) == Success(CCommand(d, cp, j))
  {
    if d == [] {
      assert CommandText(CCommand(d, cp, j)) == cp + ";" + j;
      ParseComputeJumpOnly(cp, j, n);
    } else if j == [] {
      assert CommandText(CCommand(d, cp, j)) == d + "=" + cp;
      ParseComputeDestOnly(d, cp, n);
    } else {
      assert CommandText(CCommand(d, cp, j)) == d + "=" + cp + ";" + j;
      ParseComputeDestAndJump(d, cp, j, n);
    }
  }

  lemma ParseComputeJumpOnly(cp: string, j: string, n: int)
    requires cp != [] && j != [] && NoSeparator(cp) && NoSeparator(j)
    ensures ParseCompute(cp + ";" + j, n) == Success(CCommand("", cp, j))
  {
    var w := cp + ";" + j;
    IndexOfPrefixFree(cp, ";" + j, ';');
    assert w == cp + (";" + j);
    assert '=' !in w;
    assert w[..|cp|] == cp && w[|cp| + 1..] == j;
  }

  lemma ParseComputeDestOnly(d: string, cp: string, n: int)
    requires d != [] && cp != [] && NoSeparator(d) && NoSeparator(cp)
    ensures ParseCompute(d + "=" + cp, n) == Success(CCommand(d, cp, ""))
  {
    var w := d + "=" + cp;
    assert w[..|d|] == d && w[|d|] == '=';
    IndexOfFirst(w, |d|, '=');
    assert w == d + ("=" + cp);
    assert ';' !in w;
    assert w[|d| + 1..] == cp;
    ParseComputeDestOnlyAt(w, |d|, n);
  }

  lemma ParseComputeDestOnlyAt(w: string, eq: int, n: int)
    requires 0 < eq < |w| - 1
    requires IndexOf(w, '=') == eq && IndexOf(w, ';') == -1
    ensures ParseCompute(w, n) == Success(CCommand(w[..eq], w[eq + 1..], ""))
  {
  }

  lemma ParseComputeDestAndJump(d: string, cp: string, j: string, n: int)
    requires d != [] && cp != [] && j != []
    requires NoSeparator(d) && NoSeparator(cp) && NoSeparator(j)
    ensures ParseCompute(d + "=" + cp + ";" + j, n) == Success(CCommand(d, cp, j))
  {
    var w := d + "=" + cp + ";" + j;
    var eq, sc := |d|, |d| + 1 + |cp|;
    assert w[..eq] == d;
    assert w[eq] == '=';
    IndexOfFirst(w, eq, '=');
    assert w[..sc] == d + "=" + cp;
    assert w[sc] == ';';
    IndexOfFirst(w, sc, ';');
    assert w[eq + 1..sc] == cp;
    assert w[sc + 1..] == j;
  }

  /** A well-formed command on its own line, optionally followed by a
      comment, parses back to that command. */
  lemma ParseLineOfText(c: Command, comment: seq<string>, n: int)
    requires WellFormed(c)
    requires forall i :: 0 <= i < |comment| ==> IsWord(comment[i])
    requires comment == [] || IsComment(comment[0])
    ensures ParseLine(Unwords([CommandText(c)] + comment), n) == Success(Some(c))
  {
    var w := CommandText(c);
    var ws := [w] + comment;
    TextIsWord(c);
    WordsOfUnwords(ws);
    ParseWordOfText(c, n);
    ParseLineOfWords(Unwords(ws), c, n);
  }

  lemma ParseLineOfWords(line: string, c: Command, n: int)
    requires Words(line) != [] && !IsComment(Words(line)[0])
    requires ParseWord(Words(line)[0], n) == Success(c)
    requires |Words(line)| > 1 ==> IsComment(Words(line)[1])
    ensures ParseLine(line, n) == Success(Some(c))
  {
  }

  /** A first word that starts with neither '@' nor '(' is a C command,
      split exactly as `ParseCompute` splits it, errors included. */
  lemma ParseWordCompute(w: string, n: int)
    requires w != [] && w[0] != '@' && w[0] != '('
    ensures ParseWord(w, n) == ParseCompute(w, n)
  {
  }

  /** A first word that does not classify is reported as it is, before any
      later word is looked at. */
  lemma ParseLineFirstWordError(line: string, n: int)
    requires Words(line) != [] && !IsComment(Words(line)[0])
    requires ParseWord(Words(line)[0], n).Failure?
    ensures ParseLine(line, n) == Failure(ParseWord(Words(line)[0], n).error)
  {
  }

  /** A well-formed command followed by a word that is not a comment is the
      trailing-tokens error, whatever follows that word. */
  lemma ParseLineTrailing(c: Command, t: string, rest: seq<string>, n: int)
    requires WellFormed(c)
    requires IsWord(t) && !IsComment(t)
    requires forall i :: 0 <= i < |rest| ==> IsWord(rest[i])
    ensures ParseLine(Unwords([CommandText(c), t] + rest), n) == Failure(TrailingTokens(n))
  {
    TextIsWord(c);
    TwoWordsFirst(CommandText(c), t, rest);
    ParseWordOfText(c, n);
    ParseLineTrailingWords(Unwords([CommandText(c), t] + rest), c, n);
  }

  lemma TwoWordsFirst(a: string, b: string, rest: seq<string>)
    requires IsWord(a) && IsWord(b)
    requires forall i :: 0 <= i < |rest| ==> IsWord(rest[i])
    ensures var ws := Words(Unwords([a, b] + rest)); |ws| > 1 && ws[0] == a && ws[1] == b
  {
    var ws := [a, b] + rest;
    assert forall i :: 2 <= i < |ws| ==> ws[i] == rest[i - 2];
    WordsOfUnwords(ws);
  }

  /** Any line whose first word classifies and whose second word is not a
      comment is the trailing-tokens error, however its words are
      separated. */
  lemma ParseLineTrailingWords(line: string, c: Command, n: int)
    requires |Words(line)| > 1 && !IsComment(Words(line)[0])
    requires ParseWord(Words(line)[0], n) == Success(c)
    requires !IsComment(Words(line)[1])
    ensures ParseLine(line, n) == Failure(TrailingTokens(n))
  {
  }

  lemma TextIsWord(c: Command)
    requires WellFormed(c)
    ensures IsWord(CommandText(c))
  {
    match c
    case ACommand(s) =>
      assert forall i :: 1 <= i < |"@" + s| ==> ("@" + s)[i] == s[i - 1];
    case LCommand(s) =>
      assert forall i :: 1 <= i < |s| + 1 ==> ("(" + s + ")")[i] == s[i - 1];
    case CCommand(d, cp, j) =>
      CommandTextIsWord(d, cp, j);
  }

  lemma CommandTextIsWord(d: string, cp: string, j: string)
    requires d == [] || IsWord(d)
    requires IsWord(cp)
    requires j == [] || IsWord(j)
    ensures IsWord(CommandText(CCommand(d, cp, j)))
  {
    var a := if d == [] then [] else d + "=";
    var b := if j == [] then [] else ";" + j;
    assert forall i :: 0 <= i < |a| ==> !IsSpace(a[i]) by {
      if d != [] {
        assert forall i :: 0 <= i < |d| ==> a[i] == d[i];
      }
    }
    assert forall i :: 0 <= i < |b| ==> !IsSpace(b[i]) by {
      if j != [] {
        assert forall i :: 1 <= i < |b| ==> b[i] == j[i - 1];
      }
    }
    var w := a + cp + b;
    assert forall i :: 0 <= i < |w| ==> w[i] == if i < |a| then a[i] else if i < |a| + |cp| then cp[i - |a|] else b[i - |a| - |cp|];
  }

  /** Only the first two words of a line are ever inspected. */
  lemma ParseLineSecondWordOnly(a: string, b: string, n: int)
    requires |Words(a)| >= 2 && |Words(b)| >= 2
    requires Words(a)[..2] == Words(b)[..2]
    ensures ParseLine(a, n) == ParseLine(b, n)
  {
    assert Words(a)[0] == Words(a)[..2][0];
    assert Words(a)[1] == Words(a)[..2][1];
    assert Words(b)[0] == Words(b)[..2][0];
    assert Words(b)[1] == Words(b)[..2][1];
  }
}

=== FILE: tables.dfy ===
/** The three fixed mnemonic tables of the C-command encoding. */
module Tables {
  import opened Numbers

  /** comp mnemonic -> a c1 c2 c3 c4 c5 c6 (7 bits). */
  const CompTable: map<string, string> := map[
    "0"   := "0101010",
    "1"   := "0111111",
    "-1"  := "0111010",
    "D"   := "0001100",
    "A"   := "0110000",
    "!D"  := "0001101",
    "!A"  := "0110001",
    "-D"  := "0001111",
    "-A"  := "0110011",
    "D+1" := "0011111",
    "A+1" := "0110111",
    "D-1" := "0001110",
    "A-1" := "0110010",
    "D+A" := "0000010",
    "D-A" := "0010011",
    "A-D" := "0000111",
    "D&A" := "0000000",
    "D|A" := "0010101",
    "M"   := "1110000",
    "!M"  := "1110001",
    "-M"  := "1110011",
    "M+1" := "1110111",
    "M-1" := "1110010",
    "D+M" := "1000010",
    "D-M" := "1010011",
    "M-D" := "1000111",
    "D&M" := "1000000",
    "D|M" := "1010101"
  ]

  /** dest mnemonic -> d1 d2 d3 (3 bits); "" means no destination. */
  const DestTable: map<string, string> := map[
    ""    := "000",
    "M"   := "001",
    "D"   := "010",
    "MD"  := "011",
    "A"   := "100",
    "AM"  := "101",
    "AD"  := "110",
    "AMD" := "111"
  ]

  /** jump mnemonic -> j1 j2 j3 (3 bits); "" means no jump. */
  const JumpTable: map<string, string> := map[
    ""    := "000",
    "JGT" := "001",
    "JEQ" := "010",
    "JGE" := "011",
    "JLT" := "100",
    "JNE" := "101",
    "JLE" := "110",
    "JMP" := "111"
  ]

  ghost predicate Injective(m: map<string, string>) {
    forall a, b :: a in m && b in m && m[a] == m[b] ==> a == b
  }

  ghost predicate FixedWidthBits(m: map<string, string>, width: nat) {
    forall a :: a in m ==> |m[a]| == width && IsBits(m[a])
  }

  function Flag(b: bool): char {
    if b then '1' else '0'
  }

  /** Every entry is a binary field of the table's width. */
  lemma CompTableWidth()
    ensures FixedWidthBits(CompTable, 7)
  {
    CompCodeLengths();
    CompCodeDigits();
  }

  lemma CompCodeLengths()
    ensures forall a :: a in CompTable ==> |CompTable[a]| == 7
  {
  }

  lemma CompCodeDigits()
    ensures forall a :: a in CompTable ==> IsBits(CompTable[a])
  {
  }

  lemma DestTableWidth()
    ensures FixedWidthBits(DestTable, 3)
  {
  }

  lemma JumpTableWidth()
    ensures FixedWidthBits(JumpTable, 3)
  {
  }

  /** No two mnemonics of one table share a bit pattern. */
  lemma CompTableInjective()
    ensures Injective(CompTable)
  {
    forall a, b | a in CompTable && b in CompTable && CompTable[a] == CompTable[b]
      ensures a == b
    {
      if CompTable[a][0] == '0' {
        SameCompBitsLeadingZero(a, b);
      } else {
        CompTableWidth();
        SameCompBitsLeadingOne(a, b);
      }
    }
  }

  lemma SameCompBitsLeadingZero(a: string, b: string)
    requires a in CompTable && b in CompTable && CompTable[a] == CompTable[b]
    requires CompTable[a][0] == '0'
    ensures a == b
  {
  }

  lemma SameCompBitsLeadingOne(a: string, b: string)
    requires a in CompTable && b in CompTable && CompTable[a] == CompTable[b]
    requires CompTable[a][0] == '1'
    ensures a == b
  {
  }

  lemma DestTableInjective()
    ensures Injective(DestTable)
  {
  }

  lemma JumpTableInjective()
    ensures Injective(JumpTable)
  {
  }

  /** The dest bits are the presence flags of A, D and M, in that order. */
  lemma DestBitsAreFlags()
    ensures forall d :: d in DestTable ==> DestTable[d] == [Flag('A' in d), Flag('D' in d), Flag('M' in d)]
  {
  }

  /** The leading comp bit selects M instead of A: it is 1 exactly for
      the mnemonics that mention M. */
  lemma CompLeadingBitIsM()
    ensures forall m :: m in CompTable ==> (CompTable[m][0] == '1' <==> 'M' in m)
  {
  }
}

=== FILE: text.dfy ===
/** Character-level helpers: splitting a line into words the way a
    word scanner does, and locating a character. */
module Text {

  /** The separators between words. */
  predicate IsSpace(c: char) {
    c == ' ' || c == '\t' || c == '\n' || c == '\r' || c == '\U{000B}' || c == '\U{000C}'
  }

  predicate AllSpaces(s: string) {
    forall i :: 0 <= i < |s| ==> IsSpace(s[i])
  }

  /** A word is a non-empty run of non-separators. */
  predicate IsWord(w: string) {
    |w| > 0 && forall i :: 0 <= i < |w| ==> !IsSpace(w[i])
  }

  /** Length of the run of non-separators that starts `s`. */
  function WordLength(s: string): (n: nat)
    ensures n <= |s|
    ensures forall i :: 0 <= i < n ==> !IsSpace(s[i])
    ensures n == |s| || IsSpace(s[n])
  {
    if s == [] || IsSpace(s[0]) then 0 else 1 + WordLength(s[1..])
  }

  /** The maximal runs of non-separators of `s`, left to right. */
  function Words(s: string): (ws: seq<string>)
    ensures forall i :: 0 <= i < |ws| ==> IsWord(ws[i])
    ensures ws == [] <==> AllSpaces(s)
    decreases |s|
  {
    if s == [] then []
    else if IsSpace(s[0]) then
      assert AllSpaces(s) <==> AllSpaces(s[1..]) by {
        if AllSpaces(s[1..]) {
          forall i | 0 <= i < |s| ensures IsSpace(s[i]) {
            if i > 0 { assert s[i] == s[1..][i - 1]; }
          }
        }
      }
      Words(s[1..])
    else
      var n := WordLength(s);
      [s[..n]] + Words(s[n..])
  }

  /** Words joined by single spaces. */
  function Unwords(ws: seq<string>): string {
    if ws == [] then []
    else if |ws| == 1 then ws[0]
    else ws[0] + " " + Unwords(ws[1..])
  }

  lemma {:induction false} WordLengthOfWord(w: string, t: string)
    requires IsWord(w)
    requires t == [] || IsSpace(t[0])
    ensures WordLength(w + t) == |w|
    decreases |w|
  {
    if |w| > 1 {
      assert (w + t)[1..] == w[1..] + t;
      WordLengthOfWord(w[1..], t);
    } else {
      assert (w + t)[1..] == t;
    }
  }

  /** A word followed by a separator (or nothing) is split off whole. */
  lemma WordsOfWord(w: string, t: string)
    requires IsWord(w)
    requires t == [] || IsSpace(t[0])
    ensures Words(w + t) == [w] + Words(t)
  {
    WordLengthOfWord(w, t);
    assert (w + t)[..|w|] == w;
    assert (w + t)[|w|..] == t;
  }

  /** Leading separators are skipped, however many there are. */
  lemma {:induction false} WordsSkipSpaces(sp: string, s: string)
    requires AllSpaces(sp)
    ensures Words(sp + s) == Words(s)
    decreases |sp|
  {
    if sp != [] {
      assert (sp + s)[0] == sp[0] && IsSpace(sp[0]);
      assert (sp + s)[1..] == sp[1..] + s;
      assert Words(sp + s) == Words(sp[1..] + s);
      assert AllSpaces(sp[1..]) by {
        forall i | 0 <= i < |sp| - 1 ensures IsSpace(sp[1..][i]) {
          assert sp[1..][i] == sp[i + 1];
        }
      }
      WordsSkipSpaces(sp[1..], s);
    } else {
      assert sp + s == s;
    }
  }

  /** A word ended by any run of separators is split off whole, and
      splitting resumes after the run: words come out in order. */
  lemma WordsAfterWord(w: string, sp: string, s: string)
    requires IsWord(w) && sp != [] && AllSpaces(sp)
    ensures Words(w + sp + s) == [w] + Words(s)
  {
    assert w + sp + s == w + (sp + s);
    assert (sp + s)[0] == sp[0];
    WordsOfWord(w, sp + s);
    WordsSkipSpaces(sp, s);
  }

  /** Splitting undoes joining: the round trip of `Unwords` through `Words`. */
  lemma {:induction false} WordsOfUnwords(ws: seq<string>)
    requires forall i :: 0 <= i < |ws| ==> IsWord(ws[i])
    ensures Words(Unwords(ws)) == ws
  {
    if ws == [] {
    } else if |ws| == 1 {
      WordsOfWord(ws[0], []);
      assert ws[0] + [] == ws[0];
    } else {
      var rest := " " + Unwords(ws[1..]);
      assert Unwords(ws) == ws[0] + rest;
      WordsOfWord(ws[0], rest);
      assert rest[1..] == Unwords(ws[1..]);
      WordsOfUnwords(ws[1..]);
      assert Words(rest) == Words(Unwords(ws[1..]));
      assert ws == [ws[0]] + ws[1..];
    }
  }

  /** Index of the first occurrence of `c` in `s`, or -1 when there is none. */
  function IndexOf(s: string, c: char): (i: int)
    ensures -1 <= i < |s|
    ensures i == -1 <==> c !in s
    ensures 0 <= i ==> s[i] == c && c !in s[..i]
  {
    if s == [] then -1
    else if s[0] == c then 0
    else
      var j := IndexOf(s[1..], c);
      if j == -1 then -1
      else
        assert s[..j + 1] == [s[0]] + s[1..][..j];
        j + 1
  }

  /** Searching past a prefix that does not contain `c`. */
  lemma IndexOfPrefixFree(a: string, b: string, c: char)
    requires c !in a
    ensures IndexOf(a + b, c) == if c in b then |a| + IndexOf(b, c) else -1
  {
    if c in b {
      IndexOfPastPrefix(a, b, c);
    } else {
      assert c !in a + b;
    }
  }

  lemma IndexOfPastPrefix(a: string, b: string, c: char)
    requires c !in a && c in b
    ensures IndexOf(a + b, c) == |a| + IndexOf(b, c)
  {
    var s, k := a + b, IndexOf(b, c);
    assert s[..|a| + k] == a + b[..k];
    assert s[|a| + k] == c;
    IndexOfFirst(s, |a| + k, c);
  }

  /** The first occurrence is the one with no occurrence before it. */
  lemma IndexOfFirst(s: string, i: int, c: char)
    requires 0 <= i < |s| && s[i] == c && c !in s[..i]
    ensures IndexOf(s, c) == i
  {
    assert c in s;
  }
}

=== FILE: translator.dfy ===
/** Translation of one command into its 16-character machine word. */
module Translator {
  import opened Errors
  import opened Numbers
  import opened Tables
  import opened Parser

  /** Names bound to addresses, plus the next free variable address. The
      counter is kept apart from the names. */
  datatype SymbolTable = SymbolTable(symbols: map<string, int>, next: int)

  /** `b` keeps every binding of `a`, and its counter has not gone back. */
  predicate Extends(a: SymbolTable, b: SymbolTable) {
    && a.next <= b.next
    && forall k :: k in a.symbols ==> k in b.symbols && b.symbols[k] == a.symbols[k]
  }

  /** The largest literal an A command may carry (15 bits). */
  const MaxLiteral: int := 32767

  /** An A-command word: a 0 followed by `%015b` of the address. */
  function AddressWord(v: int): string {
    "0" + Format015b(v)
  }

  /** A C-command word: 111, then the comp, dest and jump fields. */
  function ComputeWord(dest: string, comp: string, jump: string): string
    requires comp in CompTable && dest in DestTable && jump in JumpTable
  {
    "111" + CompTable[comp] + DestTable[dest] + JumpTable[jump]
  }

  /** The error translating `c` at line `n` reports, if any. */
  function CommandError(c: Command, n: int): Option<Error> {
    match c
    case LCommand(_) => None
    case CCommand(d, cp, j) =>
      if cp !in CompTable then Some(UnknownComp(cp, n))
      else if d !in DestTable then Some(UnknownDest(d, n))
      else if j !in JumpTable then Some(UnknownJump(j, n))
      else None
    case ACommand(s) =>
      match Atoi(s)
      case Some(v) => if v > MaxLiteral then Some(NumberTooBig(n)) else None
      case None => None
  }

  /** Translates one command. A label yields the empty word; an A command
      with an unknown non-literal symbol binds it to the next free
      address. Whether it fails never depends on the symbol table, and it
      only ever adds bindings. */
  function ProcessCommand(c: Command, n: int, st: SymbolTable): (r: Result<(string, SymbolTable)>)
    ensures r.Failure? <==> CommandError(c, n).Some?
    ensures r.Failure? ==> r.error == CommandError(c, n).value
    ensures r.Success? ==> Extends(st, r.value.1)
    ensures r.Success? ==> (r.value.0 == [] <==> c.LCommand?)
    ensures c.LCommand? || c.CCommand? ==> r.Failure? || r.value.1 == st
  {
    match c
    case LCommand(_) => Success(([], st))
    case CCommand(d, cp, j) =>
      if cp !in CompTable then Failure(UnknownComp(cp, n))
      else if d !in DestTable then Failure(UnknownDest(d, n))
      else if j !in JumpTable then Failure(UnknownJump(j, n))
      else Success((ComputeWord(d, cp, j), st))
    case ACommand(s) =>
      match Atoi(s)
      case Some(v) =>
        if v > MaxLiteral then Failure(NumberTooBig(n)) else Success((AddressWord(v), st))
      case None =>
        if s in st.symbols then Success((AddressWord(st.symbols[s]), st))
        else Success((AddressWord(st.next), SymbolTable(st.symbols[s := st.next], st.next + 1)))
  }

  /** A C-command word is 16 binary digits laid out as 111, comp, dest, jump. */
  lemma ComputeWordLayout(d: string, cp: string, j: string)
    requires cp in CompTable && d in DestTable && j in JumpTable
    ensures var w := ComputeWord(d, cp, j);
      && |w| == 16 && IsBits(w)
      && w[..3] == "111" && w[3..10] == CompTable[cp] && w[10..13] == DestTable[d] && w[13..] == JumpTable[j]
  {
    CompTableWidth();
    DestTableWidth();
    JumpTableWidth();
    var w := ComputeWord(d, cp, j);
    assert w == "111" + CompTable[cp] + DestTable[d] + JumpTable[j];
    assert IsBits(w) by {
      forall i | 0 <= i < 16 ensures w[i] == '0' || w[i] == '1' {
        if i < 3 {
        } else if i < 10 {
          assert w[i] == CompTable[cp][i - 3];
        } else if i < 13 {
          assert w[i] == DestTable[d][i - 10];
        } else {
          assert w[i] == JumpTable[j][i - 13];
        }
      }
    }
  }

  /** A C-command word determines its comp, dest and jump mnemonics. */
  lemma ComputeWordDetermines(d1: string, c1: string, j1: string, d2: string, c2: string, j2: string)
    requires c1 in CompTable && d1 in DestTable && j1 in JumpTable
    requires c2 in CompTable && d2 in DestTable && j2 in JumpTable
    requires ComputeWord(d1, c1, j1) == ComputeWord(d2, c2, j2)
    ensures d1 == d2 && c1 == c2 && j1 == j2
  {
    ComputeWordLayout(d1, c1, j1);
    ComputeWordLayout(d2, c2, j2);
    CompTableInjective();
    DestTableInjective();
    JumpTableInjective();
  }

  /** A C command with known mnemonics encodes to its word and leaves the
      table alone; otherwise the first unknown field, in the order comp,
      dest, jump, is reported with its value. */
  lemma ComputeCommandResult(d: string, cp: string, j: string, n: int, st: SymbolTable)
    ensures var r := ProcessCommand(CCommand(d, cp, j), n, st);
      && (cp !in CompTable ==> r == Failure(UnknownComp(cp, n)))
      && (cp in CompTable && d !in DestTable ==> r == Failure(UnknownDest(d, n)))
      && (cp in CompTable && d in DestTable && j !in JumpTable ==> r == Failure(UnknownJump(j, n)))
      && (cp in CompTable && d in DestTable && j in JumpTable ==>
            r.Success? && r.value.1 == st && |r.value.0| == 16 && IsBits(r.value.0))
  {
    if cp in CompTable && d in DestTable && j in JumpTable {
      ComputeWordLayout(d, cp, j);
    }
  }

  /** An address word is 16 binary digits reading back as the address when
      that fits 15 bits; a larger address is not truncated, and a negative
      one is not binary. */
  lemma AddressWordShape(v: int)
    ensures 0 <= v <= MaxLiteral ==>
      |AddressWord(v)| == 16 && IsBits(AddressWord(v)) && BitsValue(AddressWord(v)) == v
    ensures v > MaxLiteral ==> |AddressWord(v)| > 16
    ensures v < 0 ==> !IsBits(AddressWord(v))
  {
    var w := AddressWord(v);
    assert Pow2(15) == MaxLiteral + 1 by {
      assert Pow2(5) == 32;
      assert Pow2(10) == 1024;
    }
    if 0 <= v <= MaxLiteral {
      Format015bInRange(v);
      BitsValueLeadingZero(Format015b(v));
    } else if v > MaxLiteral {
      Format015bNoTruncation(v);
    } else {
      Format015bNegative(v);
      assert w[1] == '-';
    }
  }

  lemma {:induction false} BitsValueLeadingZero(s: string)
    requires IsBits(s)
    ensures IsBits("0" + s) && BitsValue("0" + s) == BitsValue(s)
    decreases |s|
  {
    if s != [] {
      assert ("0" + s)[..|s|] == "0" + s[..|s| - 1];
      BitsValueLeadingZero(s[..|s| - 1]);
    }
  }

  /** A decimal literal up to 32767 encodes its own value and leaves the
      table alone; a larger one that still fits 64 bits is refused. */
  lemma LiteralResult(v: nat, n: int, st: SymbolTable)
    ensures var r := ProcessCommand(ACommand(Decimal(v)), n, st);
      && (v <= MaxLiteral ==> r == Success((AddressWord(v), st)) && BitsValue(AddressWord(v)) == v)
      && (MaxLiteral < v <= MaxInt64 ==> r == Failure(NumberTooBig(n)))
      && (v > MaxInt64 && Decimal(v) in st.symbols ==>
            r == Success((AddressWord(st.symbols[Decimal(v)]), st)))
      && (v > MaxInt64 && Decimal(v) !in st.symbols ==>
            r == Success((AddressWord(st.next), SymbolTable(st.symbols[Decimal(v) := st.next], st.next + 1))))
  {
    AtoiOfDecimal(v);
    if v <= MaxInt64 {
      AddressWordShape(v);
    }
  }

  /** A non-literal symbol already bound encodes its address, and the
      table does not change. */
  lemma KnownSymbolResult(s: string, n: int, st: SymbolTable)
    requires Atoi(s) == None && s in st.symbols
    ensures ProcessCommand(ACommand(s), n, st) == Success((AddressWord(st.symbols[s]), st))
  {
  }

  /** An unbound non-literal symbol is bound to the next free address, the
      counter moves on by one, and no other binding changes. */
  lemma NewVariableResult(s: string, n: int, st: SymbolTable)
    requires Atoi(s) == None && s !in st.symbols
    ensures var r := ProcessCommand(ACommand(s), n, st);
      && r.Success?
      && r.value.0 == AddressWord(st.next)
      && r.value.1.next == st.next + 1
      && s in r.value.1.symbols && r.value.1.symbols[s] == st.next
      && forall k :: k != s ==>
           (k in r.value.1.symbols <==> k in st.symbols) &&
           (k in st.symbols ==> r.value.1.symbols[k] == st.symbols[k])
  {
  }

  /** Signed literals are accepted as the standard library parses them: a
      '+' is dropped, and a negative value passes the range check and
      formats with a '-' inside the word. */
  lemma SignedLiteralResult(n: int, st: SymbolTable)
    ensures ProcessCommand(ACommand("+7"), n, st) == Success((AddressWord(7), st))
    ensures ProcessCommand(ACommand("-1"), n, st) == Success(("0-00000000000001", st))
  {
    AtoiSigned();
    NumberResult("+7", 7, n, st);
    NumberResult("-1", -1, n, st);
    FormatMinusOne();
    assert AddressWord(-1) == "0" + "-00000000000001";
    assert "0" + "-00000000000001" == "0-00000000000001";
  }

  lemma NumberResult(s: string, v: int, n: int, st: SymbolTable)
    requires Atoi(s) == Some(v) && v <= MaxLiteral
    ensures ProcessCommand(ACommand(s), n, st) == Success((AddressWord(v), st))
  {
  }

  lemma FormatMinusOne()
    ensures Format015b(-1) == "-00000000000001"
  {
    assert BinaryDigits(1) == "1";
    assert PadZeros("1", 14) == Zeros(13) + "1";
    ZerosAreZeros(13);
    assert Zeros(13) == "0000000000000";
  }

  lemma AtoiSigned()
    ensures Atoi("+7") == Some(7)
    ensures Atoi("-1") == Some(-1)
  {
    assert "+7"[1..] == "7";
    assert "-1"[1..] == "1";
    assert DigitsValue("1") == 1 by { assert "1"[..0] == []; }
    assert DigitsValue("7") == 7 by { assert "7"[..0] == []; }
  }
}
